=== FILE: README.md ===
# Video Hub front-end: a Dafny model of its client logic

Video Hub is a browser client that searches YouTube and Dailymotion through a
small backend, pages through results with infinite scroll, plays a video in an
overlay, and saves and removes favourite videos. This project models the logic
of that client as pure Dafny functions over immutable data, and proves what
the code promises about it:

- `js.dfy` (module `Js`): the JavaScript values the client handles (JSON values
  plus `undefined`, numbers as integers), truthiness, the `a || b` default idiom,
  `v.k` and `v?.k` property access, and the text a template literal `${v}`
  substitutes.
- `text.dfy` (module `Text`): `String.prototype.trim`, decimal page numbers,
  and `name=value&…` query strings with a reader for them.
- `api.dfy` (module `Api`): the remote client `apiService`. Each of its five
  calls takes the transport outcome as an input (a response with its `ok` flag
  and a parsed or unparsable body, or a network error) and yields the safe
  default record the caller sees. The search URLs are built as the source
  builds them.
- `video_grid.dfy` (module `VideoGrid`): the incremental loader of one grid
  instance. The state is `{videos, nextPage, loading, hasMore}`. The cursor is
  `Token(value) | Page(n)`: a continuation token for YouTube and a 1-based page
  counter for Dailymotion. `loadData` is split into `StartLoad`, which is
  guarded by `loading`, and `Complete`/`Fail`. `Complete` takes the record the
  awaited `apiService` call resolves with (a `Reply`), and `Fetch` gives that
  record for a transport outcome. The module also holds the reset effect, the
  scroll trigger, the empty state, and runs of later loads.
- `video_card.dfy` (module `VideoCard`): the `title`/`thumb`/`vId` a card
  derives from a normalised or raw item, when it renders nothing, the save
  payload and toast, the delete effect, and the player URL.
- `app.dfy` (module `App`): the shell state, the grid key, the
  search/favourites toggle, and the favourites list rendered as cards.

Four behaviours of the code worth knowing:

- A delete that the backend refuses shows no notification at all. The confirm
  dialog still closes and the refresh callback is not run.
- `getFavorites` returns an error response's JSON body as the favourites list.
  If that body is an object whose `length` is not 0, such as `{detail: …}`,
  the favourites area fails to render (`App.ErrorBodyBreaksFavorites`).
- A saved YouTube favourite whose `video_id` is falsy makes its card throw, and
  the whole favourites area with it (`App.FalsyYouTubeFavoriteBreaksFavorites`).
- A card whose YouTube item has neither `video_id` nor `id` throws. It does not
  render nothing (`VideoCard.YouTubeItemWithoutIdThrows`).

## Model

| member | source | states |
|---|---|---|
| `Text.TrimStartDrops` | src/components/VideoGrid.jsx:20 | the leading part `trim` drops is all white space, the rest is a suffix of the input, and it starts with a non-white-space character |
| `Text.TrimEndDrops` | src/components/VideoGrid.jsx:20 | the trailing part `trim` drops is all white space, the rest is a prefix, and it ends with a non-white-space character |
| `Text.Trim` | src/components/VideoGrid.jsx:20 | `trim()` gives nothing, or a text no longer than the query that starts and ends with a character other than white space |
| `Text.TrimEmptyIff` | src/components/VideoGrid.jsx:20 | `query.trim()` is empty exactly when every character of the query is ECMAScript white space or a line terminator |
| `Text.TrimIsSlice` | src/components/VideoGrid.jsx:20 | the trimmed text is a contiguous slice of the query |
| `Text.NatToDecimal` | src/services/api.js:23 | `${page}` is the shortest decimal spelling of the page: digits only, at least one, and no leading zero |
| `Text.DecimalRoundTrip` | src/services/api.js:23 | the page number interpolated into the Dailymotion URL reads back as the same number |
| `Js.Or` | src/services/api.js:11-12 | `a \|\| b` is the left operand when it is truthy and the right one otherwise, and is truthy exactly when either operand is |
| `Js.ToStr` | src/services/api.js:7 | a template literal writes a string as it is, `[]` as "", an object as "[object Object]", and `undefined`/`null` by name |
| `Js.OptChain` | src/components/VideoCard.jsx:13-16 | `v?.k` is `undefined` on a nullish base and on a base without key `k`, and the property's value when the object has the key |
| `Js.Member` | src/components/VideoCard.jsx:18-19 | plain member access throws exactly on a nullish base and otherwise agrees with optional chaining |
| `Js.PathThroughNullish` | src/components/VideoCard.jsx:13-15 | an optional chain that meets a nullish link yields `undefined` however many links follow |
| `Js.PathThroughObjects` | src/components/VideoCard.jsx:15 | an optional chain through objects that have every key yields the leaf value |
| `Api.ReadJson` | src/services/api.js:8-9 | reading the body succeeds exactly for a response with a JSON body, and gives that body |
| `Api.YouTubeSearchUrl` | src/services/api.js:7 | the URL is the YouTube search prefix followed by `q` (encoded), `pageToken` and `lang` joined with `&` |
| `Api.DailymotionSearchUrl` | src/services/api.js:23 | the URL is the Dailymotion search prefix followed by `page` (in decimal), `q` (encoded) and `lang` joined with `&` |
| `Api.YouTubeSearchUrlParams` | src/services/api.js:7 | the YouTube URL carries `q` (through the encoder), `pageToken` and `lang` (raw), in that order, and they read back from the URL |
| `Api.DailymotionSearchUrlParams` | src/services/api.js:23 | the Dailymotion URL carries `page`, `q` (encoded) and `lang`, in that order, and `page` reads back as the requested number |
| `Api.GetYouTubeVideos` | src/services/api.js:5-18 | truthy `items`/`nextPageToken` of a JSON body are kept and falsy or missing ones become `[]`/`""`, whatever the status; a failed fetch, a non-JSON body or a nullish body gives `{items: [], nextPageToken: ""}` |
| `Api.GetDailymotionVideos` | src/services/api.js:21-34 | truthy `list`/`has_more` of a JSON body are kept and falsy or missing ones become `[]`/`false`, whatever the status; a failed fetch, a non-JSON body or a nullish body gives `{list: [], has_more: false}` |
| `Api.SaveVideo` | src/services/api.js:37-49 | the result is true exactly when the backend answered with an ok status |
| `Api.GetFavorites` | src/services/api.js:52-60 | the parsed body is returned as it is, and `[]` when the fetch fails or the body is not JSON |
| `Api.DeleteFavorite` | src/services/api.js:63-73 | the result is true exactly when the backend answered with an ok status |
| `Api.SaveRequest` | src/services/api.js:39-43 | saving is a POST to `/save-video` under the backend base URL |
| `Api.FavoritesRequest` | src/services/api.js:54 | listing favourites is a GET of `/favorites` under the backend base URL |
| `Api.DeleteRequest` | src/services/api.js:65-67 | a DELETE whose path is `/delete-favorite/` followed by the interpolated id |
| `Api.YouTubeBodyShaped` | src/services/api.js:10-13 | a JSON object body yields its `items` and `nextPageToken`, each replaced by `[]`/`""` when falsy, whatever the status |
| `Api.DailymotionBodyShaped` | src/services/api.js:26-29 | a JSON object body yields its `list` and `has_more`, each replaced by `[]`/`false` when falsy, whatever the status |
| `Api.StatusIgnored` | src/services/api.js:8-13 | both searches and `getFavorites` shape an error response with a JSON body exactly like a successful one |
| `Api.FailuresLookFinal` | src/services/api.js:14-16 | a failed search page has empty items, a falsy token and a falsy `has_more` |
| `VideoGrid.TypeName` | src/App.jsx:56-64 | the provider strings hold no hyphen |
| `VideoGrid.StartCursor` | src/components/VideoGrid.jsx:8 | the start cursor is the empty token for YouTube and page 1 for Dailymotion |
| `VideoGrid.Initial` | src/components/VideoGrid.jsx:7-10 | a grid starts with no videos, not loading, `hasMore` set and the start cursor |
| `VideoGrid.SearchTerm` | src/components/VideoGrid.jsx:20 | the term is "trending" for an all-white-space query and the untrimmed query otherwise |
| `VideoGrid.StartLoad` | src/components/VideoGrid.jsx:14-20 | a call while loading changes nothing and issues nothing; otherwise `loading` is raised and one search for the start cursor (initial) or the stored cursor (later) is issued |
| `VideoGrid.AsList` | src/components/VideoGrid.jsx:27 | an array gives its elements, a falsy value gives the empty list, and nothing else is a list |
| `VideoGrid.Fail` | src/components/VideoGrid.jsx:39-43 | after a thrown load only `loading` changes: videos, cursor and `hasMore` stay |
| `VideoGrid.CompleteYouTube` | src/components/VideoGrid.jsx:24-30 | the items replace the list on an initial load and are appended otherwise; the cursor becomes the token or ""; `hasMore` holds exactly when the token is truthy |
| `VideoGrid.CompleteDailymotion` | src/components/VideoGrid.jsx:32-37 | the list replaces or is appended; the counter becomes 2 after an initial load and moves on by one otherwise; `hasMore` is the truthiness of `has_more` |
| `VideoGrid.Fetch` | src/components/VideoGrid.jsx:24-33 | a YouTube grid awaits `getYouTubeVideos` and a Dailymotion grid `getDailymotionVideos`, so the reply is always of the grid's own provider |
| `VideoGrid.Complete` | src/components/VideoGrid.jsx:22-43 | every completion clears `loading` and keeps the cursor in the provider's encoding |
| `VideoGrid.Load` | src/components/VideoGrid.jsx:13-45 | a whole `loadData` call is a no-op while loading and otherwise ends idle, keeping the cursor invariant |
| `VideoGrid.Reset` | src/components/VideoGrid.jsx:48-55 | the reset empties the list, re-arms `hasMore`, rewinds the cursor and issues an initial load for the start cursor, with the query as typed (or "trending" when it is blank), the language and the grid's provider, unless one is pending; with a load pending only the list, `hasMore` and cursor change |
| `VideoGrid.Scroll` | src/components/VideoGrid.jsx:57-63 | a later load is issued exactly when within 100 pixels of the bottom, idle and `hasMore`; it asks for the stored cursor with the query as typed (or "trending" when it is blank), the language and the grid's provider; otherwise nothing changes |
| `VideoGrid.LoadAppends` | src/components/VideoGrid.jsx:28-35 | one later load appends the items that arrived to the list and settles |
| `VideoGrid.CompleteLater` | src/components/VideoGrid.jsx:27-35 | the settling half of a later load appends the arrived items to the list, and nothing when the list cannot be stored |
| `VideoGrid.LaterLoadsAppend` | src/components/VideoGrid.jsx:28-35 | after any run of later loads the list is the old list followed by each page's items in arrival order |
| `VideoGrid.DailymotionStep` | src/components/VideoGrid.jsx:33-43 | one later load from page n leaves the grid idle on page n + 1, even when the page is empty |
| `VideoGrid.DailymotionCounter` | src/components/VideoGrid.jsx:33-36 | after a run of later loads from page n the counter is n plus the number of loads, empty pages included |
| `VideoGrid.DailymotionPages` | src/components/VideoGrid.jsx:19-36 | in a run of later loads from page n, the k-th load (from 0) asks for page n + k, with the normalised term and the grid's language |
| `VideoGrid.DailymotionPageAfterInitial` | src/components/VideoGrid.jsx:19-36 | after the initial load the counter is 2, and the k-th later load (from 0) asks for page k + 2 |
| `VideoGrid.YouTubeTokenFollowed` | src/components/VideoGrid.jsx:19-30 | the next later load asks for the token the previous load returned (or ""), and `hasMore` follows that token's truthiness |
| `VideoGrid.InitialLoadReplaces` | src/components/VideoGrid.jsx:19-36 | an initial load leaves exactly the arrived items, whatever the list held, and restarts the cursor |
| `VideoGrid.AtMostOneInFlight` | src/components/VideoGrid.jsx:14-16 | while a load is pending no further `loadData` call, reset or scroll issues a search |
| `VideoGrid.EndIsFinal` | src/components/VideoGrid.jsx:60 | once `hasMore` is false no scroll issues a search or changes the state |
| `VideoGrid.Mount` | src/components/VideoGrid.jsx:48-55 | a mounted grid is empty, loading and re-armed on the start cursor, and has asked for the start cursor with the normalised term and its language |
| `VideoGrid.ShowsEmptyState` | src/components/VideoGrid.jsx:80 | "No videos found" shows when the grid is idle and holds no videos |
| `VideoGrid.EmptyStateAfterInitialLoad` | src/components/VideoGrid.jsx:80 | once the first load settles, "No videos found" shows exactly when that load delivered no items |
| `VideoGrid.BlankIsTrending` | src/components/VideoGrid.jsx:20 | both the empty query and a query of a space and a tab are sent as "trending" |
| `VideoGrid.BlankQueryScenario` | src/components/VideoGrid.jsx:19-20 | an empty or blank YouTube query asks for "trending" with an empty page token |
| `VideoGrid.TokenFirstPage` | src/components/VideoGrid.jsx:24-30 | a first YouTube body `{items: [x, y], nextPageToken: "T1"}` leaves the grid idle with x, y, cursor "T1" and `hasMore` set |
| `VideoGrid.TokenScenario` | src/components/VideoGrid.jsx:24-30 | after a first body `{items: [x, y], nextPageToken: "T1"}` the grid holds x, y and token "T1", a scroll asks for "T1", and x, y stay in front of the next page |
| `VideoGrid.EmptyDailymotionScenario` | src/components/VideoGrid.jsx:80 | a first Dailymotion body `{list: [], has_more: false}` leaves the grid idle, empty, final and on page 2, so it shows "No videos found" and scrolling loads nothing |
| `VideoCard.Title` | src/components/VideoCard.jsx:13 | the title is `video.title` when truthy, else `snippet.title` |
| `VideoCard.Thumb` | src/components/VideoCard.jsx:14-15 | the thumbnail is `video.thumbnail` when truthy, else `snippet.thumbnails.high.url` for "youtube" and `thumbnail_480_url` for any other type |
| `VideoCard.VideoId` | src/components/VideoCard.jsx:16-20 | `video_id` when truthy; otherwise the string `id` or `id.videoId` for "youtube" and `id` for other types; it throws exactly on a nullish video, or a nullish YouTube `id` |
| `VideoCard.Fields` | src/components/VideoCard.jsx:13-20 | the mapping succeeds exactly when the id derivation does |
| `VideoCard.Render` | src/components/VideoCard.jsx:22 | a card shows exactly when its `vId` is truthy (so `""` renders nothing) |
| `VideoCard.Payload` | src/components/VideoCard.jsx:28 | the save payload is `{platform: type, video_id: vId, title, thumbnail: thumb}` |
| `VideoCard.HandleSave` | src/components/VideoCard.jsx:25-34 | the save posts `{platform, video_id, title, thumbnail}` of the card to `/save-video` and shows a success toast exactly on an ok status, an error toast otherwise |
| `VideoCard.SaveToast` | src/components/VideoCard.jsx:25-34 | a success toast exactly when the save got an ok status, an error toast otherwise |
| `VideoCard.ConfirmDelete` | src/components/VideoCard.jsx:37-48 | the refresh runs exactly on success with a callback, the dialog always closes, and a failed delete shows no toast |
| `VideoCard.EmbedUrl` | src/components/VideoCard.jsx:96 | the YouTube embed prefix is used exactly for "youtube" and the Dailymotion one otherwise; the id text sits between the prefix and `?autoplay=1` |
| `VideoCard.ReadsRawYouTubeItem` | src/components/VideoCard.jsx:13-20 | a raw YouTube result is read through `snippet` and `id.videoId` and renders exactly when its id is non-empty |
| `VideoCard.ReadsRawDailymotionItem` | src/components/VideoCard.jsx:13-20 | a raw Dailymotion result is read through its flat fields and renders exactly when its id is non-empty |
| `VideoCard.YouTubeItemWithoutIdThrows` | src/components/VideoCard.jsx:16-22 | a YouTube item with neither `video_id` nor `id` throws, and a Dailymotion one renders nothing |
| `VideoCard.SnippetlessItemHasNoTitleOrThumb` | src/components/VideoCard.jsx:13-15 | with no own title or thumbnail and no `snippet`, the title is `undefined`, and so is a YouTube thumbnail, without throwing |
| `VideoCard.NestedYouTubeThumbnail` | src/components/VideoCard.jsx:14-15 | a YouTube item holding only `snippet.thumbnails.high.url` shows that URL as its thumbnail |
| `App.InitialShell` | src/App.jsx:9-13 | the shell starts on YouTube with an empty query, language "en", in search mode, with no favourites |
| `App.InitialShellLoadsTrending` | src/App.jsx:9-13 | the first grid asks YouTube for "trending" in "en" from the first page, and the favourites list starts empty |
| `App.GridKey` | src/App.jsx:97 | the key is the type, the language and the query joined by hyphens |
| `App.GridKeyInjective` | src/App.jsx:97 | with hyphen-free language codes, equal grid keys mean equal provider, language and query |
| `App.LanguagesHyphenFree` | src/App.jsx:86-91 | none of the offered language codes holds a hyphen |
| `App.ParamChangeRemounts` | src/App.jsx:97 | any change of provider, language or query changes the key, so a fresh loader is mounted |
| `App.SelectProvider` | src/App.jsx:55-70 | only the provider changes |
| `App.SelectLang` | src/App.jsx:81-92 | only the language changes, to an offered code |
| `App.CommitQuery` | src/App.jsx:15-18 | a committed query changes only the query |
| `App.FetchFavorites` | src/App.jsx:20-28 | the favourites become what `getFavorites` returned and favourites mode is always entered |
| `App.HeaderClick` | src/App.jsx:42-99 | the button always flips the mode; it fetches the favourites exactly when entering favourites mode; leaving keeps the list and mounts a fresh grid for the same props |
| `App.HeaderRoundTrip` | src/App.jsx:42-99 | two clicks from search mode return to search mode with the same grid key and no second favourites fetch; the grid is mounted afresh, empty, and asks for the first page again |
| `App.FavoriteCard` | src/App.jsx:108-118 | a favourite becomes a card of its platform with its `video_id`, title and thumbnail, in favourite view with a refresh; the card's video holds exactly those three keys, so the card's `id` and `snippet` fallbacks find nothing; a nullish entry throws |
| `App.MapCards` | src/App.jsx:108-120 | the cards are the favourites mapped in order, and the mapping fails exactly when an entry is nullish |
| `App.Length` | src/App.jsx:104 | `favorites.length` throws exactly on a nullish value, counts an array's entries and a string's characters, and is `undefined` for a number or boolean |
| `App.RenderFavorites` | src/App.jsx:104-122 | an empty array shows "No Video Saved"; an array shows card k as the card of entry k, every shown card renders, and the area fails exactly when some entry is nullish or its card's field derivation throws; a nullish, numeric or boolean value fails; a string shows "No Video Saved" when empty and fails otherwise; an object (such as an error body) shows "No Video Saved" when its `length` is 0 and fails otherwise |
| `App.FailedFetchShowsNothingSaved` | src/App.jsx:104-105 | after a failed favourites fetch the area shows "No Video Saved" |
| `App.ErrorBodyBreaksFavorites` | src/App.jsx:104-108 | an error response whose body is an object whose `length` is not 0, such as `{detail: …}`, is stored as the favourites and the area fails to render |
| `App.FalsyYouTubeFavoriteBreaksFavorites` | src/App.jsx:108-118 | one YouTube favourite with a falsy `video_id` makes the favourites area fail, since its card reads `id.videoId` of a video that has no `id` |
| `App.SaveThenListRoundTrip` | src/App.jsx:108-118 | a saved card listed back as a favourite keeps its platform and id and plays the same URL; truthy title and thumbnail come back unchanged |
| `App.DeleteFromFavorites` | src/components/VideoCard.jsx:39-44 | a successful delete re-fetches the favourites and a failed one leaves the shell unchanged, in favourites mode either way |

## Left out

- Network, JSON parsing and `encodeURIComponent` are not modelled. The transport outcome is an input, and the encoder is a function parameter.
- Floating-point numbers are left out: numbers are integers, so fractional and NaN values are not covered. The scroll geometry is in whole pixels.
- The `console.error` calls in the `catch` blocks (src/services/api.js:15,31,46,57,70, src/components/VideoGrid.jsx:40, src/App.jsx:26) are logging only and are left out.
- React scheduling is left out. State updates apply at once and in order, and the `loading` guard reads the current state, not a render-time closure. StrictMode double effects are not modelled.
- There is no interleaving between grid instances. The key remounts the grid per parameter triple, so the model has one loader per triple and no stale responses.
- Strings are sequences of characters, so `length` counts characters, not UTF-16 code units.
- The debounce timer (600 ms) is reduced to discrete query commits.
- Layout, modals, skeleton cards, toast text and the grid's card keys are presentation and are left out. Toasts are reduced to their kind.
- VideoGrid.AsList: a truthy `items`/`list` that is not an array is treated as a thrown load, so the state is kept. In the source, an initial load would store that value and the next render would fail. A later load would spread a string's characters or throw.
- VideoGrid.CompleteDailymotion: `hasMore` is kept as the truthiness of `has_more || false`, not the raw value. It is only ever read as a condition.
- VideoGrid.DailymotionCounter: it needs every reply to be a Dailymotion page whose list is an array or falsy (`DailymotionPageOk`), because of the AsList simplification above.
- VideoGrid.DailymotionPages: it needs the same of every reply, for the same reason.
- VideoGrid.DailymotionStep: it needs the reply's list to be an array or falsy, for the same reason. In the source a later page whose `list` is a non-empty string spreads its characters, each renders nothing, and the counter still moves on.
- VideoGrid.DailymotionPageAfterInitial: it needs the first reply and every later reply to have an array or falsy list, for the same reason.
- `VideoGrid.CompleteDailymotion` requires a page cursor on later loads. That is the instance invariant `Inv`, and every transition keeps it.
- The `catch` blocks in `handleSaveVideo`, `confirmDelete` and `fetchFavorites` cannot be reached, because the api calls never throw. So they are not modelled as separate paths.
- The stored favourite record (`App.StoredRecord`) assumes the backend lists back the fields it was sent, plus an `id`. The backend is not part of this model.

=== FILE: api.dfy ===
/**
  The remote client (`apiService`): five calls to a fixed backend origin. The
  network is not modelled; each call takes the transport outcome as an input
  and turns it into the safe value the caller sees. None of the calls throws.
 */
module Api {
  import opened Js
  import opened Text

  const BaseUrl := "http://localhost:8001"

  /** What `res.json()` produces: a parsed value, or a rejection for a body that is not JSON. */
  datatype Body = Parsed(json: Value) | Malformed

  /** What `fetch` delivered: a response with its `ok` flag, or a rejected promise. */
  datatype Transport = Response(ok: bool, body: Body) | NetworkError

  datatype Method = Get | Post | Delete

  /** The HTTP request a call issues. */
  datatype Request = Request(verb: Method, url: string)

  /** The record `getYouTubeVideos` resolves to. */
  datatype YouTubePage = YouTubePage(items: Value, nextPageToken: Value)

  /** The record `getDailymotionVideos` resolves to. */
  datatype DailymotionPage = DailymotionPage(list: Value, has_more: Value)

  /** `await (await fetch(url)).json()`; a failed fetch or an unparsable body throws. */
  function ReadJson(t: Transport): (r: Eval<Value>)
    ensures r.Ok? <==> t.Response? && t.body.Parsed?
    ensures r.Ok? ==> r.value == t.body.json
  {
    match t
    case NetworkError => Thrown
    case Response(_, Malformed) => Thrown
    case Response(_, Parsed(j)) => Ok(j)
  }

  // ---------------------------------------------------------------------------
  // URLs

  const YouTubeSearchPrefix := BaseUrl + "/youtube/search?"
  const DailymotionSearchPrefix := BaseUrl + "/dailymotion/search?"

  /** `${BASE_URL}/youtube/search?q=${encodeURIComponent(query)}&pageToken=${pageToken}&lang=${lang}`;
      `enc` stands for `encodeURIComponent`. */
  function YouTubeSearchUrl(enc: string -> string, query: string, pageToken: Value, lang: string): (url: string)
    ensures url == YouTubeSearchPrefix + QueryString([("q", enc(query)), ("pageToken", ToStr(pageToken)), ("lang", lang)])
  {
    ThreeParams([("q", enc(query)), ("pageToken", ToStr(pageToken)), ("lang", lang)]);
    QueryAssoc(YouTubeSearchPrefix, "q", "pageToken", "lang", enc(query), ToStr(pageToken), lang);
    assert BaseUrl + "/youtube/search?q=" == YouTubeSearchPrefix + ("q" + "=");
    assert "&pageToken=" == "&" + "pageToken" + "=";
    assert "&lang=" == "&" + "lang" + "=";
    BaseUrl + "/youtube/search?q=" + enc(query) + "&pageToken=" + ToStr(pageToken) + "&lang=" + lang
  }

  /** `${BASE_URL}/dailymotion/search?page=${page}&q=${encodeURIComponent(query)}&lang=${lang}` */
  function DailymotionSearchUrl(enc: string -> string, page: nat, query: string, lang: string): (url: string)
    ensures url == DailymotionSearchPrefix + QueryString([("page", NatToDecimal(page)), ("q", enc(query)), ("lang", lang)])
  {
    ThreeParams([("page", NatToDecimal(page)), ("q", enc(query)), ("lang", lang)]);
    QueryAssoc(DailymotionSearchPrefix, "page", "q", "lang", NatToDecimal(page), enc(query), lang);
    assert BaseUrl + "/dailymotion/search?page=" == DailymotionSearchPrefix + ("page" + "=");
    assert "&q=" == "&" + "q" + "=";
    assert "&lang=" == "&" + "lang" + "=";
    BaseUrl + "/dailymotion/search?page=" + NatToDecimal(page) + "&q=" + enc(query) + "&lang=" + lang
  }

  /** The YouTube search URL carries exactly `q`, `pageToken` and `lang`, in that
      order: the query through the encoder, the token and language as they are.
      A token or language holding `&` would break this, since neither is encoded. */
  lemma YouTubeSearchUrlParams(enc: string -> string, query: string, pageToken: Value, lang: string)
    requires Readable([("q", enc(query)), ("pageToken", ToStr(pageToken)), ("lang", lang)])
    ensures var url := YouTubeSearchUrl(enc, query, pageToken, lang);
      && |YouTubeSearchPrefix| <= |url|
      && url[..|YouTubeSearchPrefix|] == YouTubeSearchPrefix
      && ReadQuery(url[|YouTubeSearchPrefix|..])
         == [("q", enc(query)), ("pageToken", ToStr(pageToken)), ("lang", lang)]
  {
    var ps := [("q", enc(query)), ("pageToken", ToStr(pageToken)), ("lang", lang)];
    var url := YouTubeSearchUrl(enc, query, pageToken, lang);
    assert url[|YouTubeSearchPrefix|..] == QueryString(ps);
    QueryRoundTrip(ps);
  }

  /** The Dailymotion search URL carries exactly `page`, `q` and `lang`, in that
      order, and the `page` parameter reads back as the requested page. */
  lemma DailymotionSearchUrlParams(enc: string -> string, page: nat, query: string, lang: string)
    requires Readable([("page", NatToDecimal(page)), ("q", enc(query)), ("lang", lang)])
    ensures var url := DailymotionSearchUrl(enc, page, query, lang);
      && |DailymotionSearchPrefix| <= |url|
      && url[..|DailymotionSearchPrefix|] == DailymotionSearchPrefix
      && ReadQuery(url[|DailymotionSearchPrefix|..])
         == [("page", NatToDecimal(page)), ("q", enc(query)), ("lang", lang)]
      && DecimalValue(ReadQuery(url[|DailymotionSearchPrefix|..])[0].1) == page
  {
    var ps := [("page", NatToDecimal(page)), ("q", enc(query)), ("lang", lang)];
    var url := DailymotionSearchUrl(enc, page, query, lang);
    assert url[|DailymotionSearchPrefix|..] == QueryString(ps);
    QueryRoundTrip(ps);
    DecimalRoundTrip(page);
  }

  lemma QueryAssoc(p: string, a: string, b: string, c: string, x: string, y: string, z: string)
    ensures p + (a + "=") + x + ("&" + b + "=") + y + ("&" + c + "=") + z
         == p + ((a + "=" + x) + "&" + (b + "=" + y) + "&" + (c + "=" + z))
  {
  }

  /** A three-parameter query string spelled out. */
  lemma ThreeParams(ps: seq<(string, string)>)
    requires |ps| == 3
    ensures QueryString(ps) == Param(ps[0]) + "&" + Param(ps[1]) + "&" + Param(ps[2])
  {
    var pieces := seq(|ps|, k requires 0 <= k < |ps| => Param(ps[k]));
    assert pieces == [Param(ps[0]), Param(ps[1]), Param(ps[2])];
    assert pieces[1..] == [Param(ps[1]), Param(ps[2])];
    assert pieces[1..][1..] == [Param(ps[2])];
    calc {
      JoinWith(pieces, '&');
      Param(ps[0]) + ['&'] + JoinWith(pieces[1..], '&');
      Param(ps[0]) + ['&'] + (Param(ps[1]) + ['&'] + Param(ps[2]));
    }
  }

  /** `fetch(`${BASE_URL}/save-video`, {method: "POST", …})` */
  function SaveRequest(): (r: Request)
    ensures r.verb == Post && r.url == BaseUrl + "/save-video"
  {
    Request(Post, BaseUrl + "/save-video")
  }

  /** `fetch(`${BASE_URL}/favorites`)` */
  function FavoritesRequest(): (r: Request)
    ensures r.verb == Get && r.url == BaseUrl + "/favorites"
  {
    Request(Get, BaseUrl + "/favorites")
  }

  const DeletePrefix := BaseUrl + "/delete-favorite/"

  /** `DELETE ${BASE_URL}/delete-favorite/${vId}`: the id is interpolated unencoded. */
  function DeleteRequest(vId: Value): (r: Request)
    ensures r.verb == Delete
    ensures |DeletePrefix| <= |r.url| && r.url[..|DeletePrefix|] == DeletePrefix
    ensures r.url[|DeletePrefix|..] == ToStr(vId)
  {
    Request(Delete, DeletePrefix + ToStr(vId))
  }

  // ---------------------------------------------------------------------------
  // Result shaping

  /** `getYouTubeVideos`: `{items: data.items || [], nextPageToken: data.nextPageToken || ""}`,
      and `{items: [], nextPageToken: ""}` when anything throws. The HTTP status is not checked. */
  function GetYouTubeVideos(t: Transport): (r: YouTubePage)
    ensures Truthy(r.items) || r.items == Arr([])
    ensures Truthy(r.nextPageToken) || r.nextPageToken == Str("")
    ensures ReadJson(t).Thrown? || Nullish(ReadJson(t).value) ==> r == YouTubePage(Arr([]), Str(""))
    ensures ReadJson(t).Ok? && Truthy(Prop(ReadJson(t).value, "items")) ==>
      r.items == Prop(ReadJson(t).value, "items")
    ensures ReadJson(t).Ok? && Truthy(Prop(ReadJson(t).value, "nextPageToken")) ==>
      r.nextPageToken == Prop(ReadJson(t).value, "nextPageToken")
    ensures ReadJson(t).Ok? && !Truthy(Prop(ReadJson(t).value, "items")) ==> r.items == Arr([])
    ensures ReadJson(t).Ok? && !Truthy(Prop(ReadJson(t).value, "nextPageToken")) ==> r.nextPageToken == Str("")
  {
    match ReadJson(t)
    case Thrown => YouTubePage(Arr([]), Str(""))
    case Ok(data) =>
      match Member(data, "items")
      case Thrown => YouTubePage(Arr([]), Str(""))
      case Ok(items) =>
        YouTubePage(Or(items, Arr([])), Or(Prop(data, "nextPageToken"), Str("")))
  }

  /** `getDailymotionVideos`: `{list: data.list || [], has_more: data.has_more || false}`,
      and `{list: [], has_more: false}` when anything throws. The HTTP status is not checked. */
  function GetDailymotionVideos(t: Transport): (r: DailymotionPage)
    ensures Truthy(r.list) || r.list == Arr([])
    ensures Truthy(r.has_more) || r.has_more == Bool(false)
    ensures ReadJson(t).Thrown? || Nullish(ReadJson(t).value) ==> r == DailymotionPage(Arr([]), Bool(false))
    ensures ReadJson(t).Ok? && Truthy(Prop(ReadJson(t).value, "list")) ==>
      r.list == Prop(ReadJson(t).value, "list")
    ensures ReadJson(t).Ok? && Truthy(Prop(ReadJson(t).value, "has_more")) ==>
      r.has_more == Prop(ReadJson(t).value, "has_more")
    ensures ReadJson(t).Ok? && !Truthy(Prop(ReadJson(t).value, "list")) ==> r.list == Arr([])
    ensures ReadJson(t).Ok? && !Truthy(Prop(ReadJson(t).value, "has_more")) ==> r.has_more == Bool(false)
  {
    match ReadJson(t)
    case Thrown => DailymotionPage(Arr([]), Bool(false))
    case Ok(data) =>
      match Member(data, "list")
      case Thrown => DailymotionPage(Arr([]), Bool(false))
      case Ok(list) =>
        DailymotionPage(Or(list, Arr([])), Or(Prop(data, "has_more"), Bool(false)))
  }

  /** `saveVideo`: `res.ok`, and false when the fetch fails. The body is never read. */
  function SaveVideo(t: Transport): (r: bool)
    ensures r <==> t.Response? && t.ok
  {
    match t
    case NetworkError => false
    case Response(ok, _) => ok
  }

  /** `getFavorites`: the parsed body as it is, whatever the status, and `[]`
      when the fetch fails or the body is not JSON. */
  function GetFavorites(t: Transport): (r: Value)
    ensures ReadJson(t).Thrown? ==> r == Arr([])
    ensures ReadJson(t).Ok? ==> r == ReadJson(t).value
  {
    match ReadJson(t)
    case Thrown => Arr([])
    case Ok(data) => data
  }

  /** `deleteFavorite`: `res.ok`, and false when the fetch fails. */
  function DeleteFavorite(t: Transport): (r: bool)
    ensures r <==> t.Response? && t.ok
  {
    match t
    case NetworkError => false
    case Response(ok, _) => ok
  }

  /** Neither search call nor `getFavorites` looks at the status: an error
      response with a JSON body is shaped exactly like a successful one. */
  lemma StatusIgnored(b: Body)
    ensures GetYouTubeVideos(Response(false, b)) == GetYouTubeVideos(Response(true, b))
    ensures GetDailymotionVideos(Response(false, b)) == GetDailymotionVideos(Response(true, b))
    ensures GetFavorites(Response(false, b)) == GetFavorites(Response(true, b))
  {
  }

  /** A failed YouTube page ends the listing: its token is falsy. A failed
      Dailymotion page reports no more pages. */
  lemma FailuresLookFinal(t: Transport)
    requires ReadJson(t).Thrown?
    ensures !Truthy(GetYouTubeVideos(t).nextPageToken)
    ensures !Truthy(GetDailymotionVideos(t).has_more)
    ensures GetYouTubeVideos(t).items == Arr([]) && GetDailymotionVideos(t).list == Arr([])
  {
  }

  /** A YouTube body carrying both fields is shaped field by field, whatever the status. */
  lemma YouTubeBodyShaped(ok: bool, items: Value, tok: Value)
    ensures GetYouTubeVideos(Response(ok, Parsed(Obj(map["items" := items, "nextPageToken" := tok]))))
         == YouTubePage(Or(items, Arr([])), Or(tok, Str("")))
  {
    var data := Obj(map["items" := items, "nextPageToken" := tok]);
    assert Prop(data, "items") == items;
    assert Prop(data, "nextPageToken") == tok;
  }

  /** A Dailymotion body carrying both fields is shaped field by field, whatever the status. */
  lemma DailymotionBodyShaped(ok: bool, list: Value, more: Value)
    ensures GetDailymotionVideos(Response(ok, Parsed(Obj(map["list" := list, "has_more" := more]))))
         == DailymotionPage(Or(list, Arr([])), Or(more, Bool(false)))
  {
    var data := Obj(map["list" := list, "has_more" := more]);
    assert Prop(data, "list") == list;
    assert Prop(data, "has_more") == more;
  }
}

=== FILE: app.dfy ===
/**
  The view shell (`App`): the provider, committed query and language that
  parameterise the grid, the search/favourites mode switch, and the
  favourites list rendered as cards. The debounce in front of the query is
  reduced to its effect, a committed query value.
 */
module App {
  import opened Js
  import opened Text
  import opened Api
  import opened VideoGrid
  import opened VideoCard

  datatype Shell = Shell(provider: Provider, query: string, lang: string, showFavorites: bool, favorites: Value)

  /** The language codes the selector offers. */
  const Languages: seq<string> := ["en", "hi", "es", "fr", "de", "ar"]

  /** The `useState` initial values. */
  function InitialShell(): (s: Shell)
    ensures s.provider == YouTube && s.query == "" && s.lang == "en"
    ensures !s.showFavorites && s.favorites == Arr([])
    ensures s.lang in Languages
  {
    Shell(YouTube, "", "en", false, Arr([]))
  }

  /** The props the grid receives. */
  function GridParams(s: Shell): Params {
    Params(s.provider, s.query, s.lang)
  }

  /** The grid's `key`: `${type}-${lang}-${query}`. */
  function GridKey(s: Shell): string {
    TypeName(s.provider) + "-" + s.lang + "-" + s.query
  }

  /** The key tells the parameter triples apart: with hyphen-free language
      codes, equal keys mean equal grid props. So every change of provider,
      language or query mounts a fresh loader. */
  lemma GridKeyInjective(s1: Shell, s2: Shell)
    requires '-' !in s1.lang && '-' !in s2.lang
    requires GridKey(s1) == GridKey(s2)
    ensures GridParams(s1) == GridParams(s2)
  {
    var a1, a2 := TypeName(s1.provider), TypeName(s2.provider);
    assert GridKey(s1) == a1 + ['-'] + (s1.lang + "-" + s1.query);
    assert GridKey(s2) == a2 + ['-'] + (s2.lang + "-" + s2.query);
    SplitAtFirst(a1, s1.lang + "-" + s1.query, a2, s2.lang + "-" + s2.query, '-');
    SplitAtFirst(s1.lang, s1.query, s2.lang, s2.query, '-');
  }

  /** None of the offered language codes holds a hyphen. */
  lemma LanguagesHyphenFree(l: string)
    requires l in Languages
    ensures '-' !in l
  {
  }

  /** A changed provider, language or query always changes the key. */
  lemma ParamChangeRemounts(s1: Shell, s2: Shell)
    requires s1.lang in Languages && s2.lang in Languages
    requires GridParams(s1) != GridParams(s2)
    ensures GridKey(s1) != GridKey(s2)
  {
    LanguagesHyphenFree(s1.lang);
    LanguagesHyphenFree(s2.lang);
    if GridKey(s1) == GridKey(s2) {
      GridKeyInjective(s1, s2);
    }
  }

  // ---------------------------------------------------------------------------
  // Parameter events

  function SelectProvider(s: Shell, p: Provider): (r: Shell)
    ensures r.provider == p && r.query == s.query && r.lang == s.lang
    ensures r.showFavorites == s.showFavorites && r.favorites == s.favorites
  {
    s.(provider := p)
  }

  /** `setLang(e.target.value)` from the selector. */
  function SelectLang(s: Shell, l: string): (r: Shell)
    requires l in Languages
    ensures r.lang == l && r.provider == s.provider && r.query == s.query
    ensures r.showFavorites == s.showFavorites && r.favorites == s.favorites
  {
    s.(lang := l)
  }

  /** The debounced `setQuery(value)` once the input has been still for the delay. */
  function CommitQuery(s: Shell, q: string): (r: Shell)
    ensures r.query == q && r.provider == s.provider && r.lang == s.lang
    ensures r.showFavorites == s.showFavorites && r.favorites == s.favorites
  {
    s.(query := q)
  }

  // ---------------------------------------------------------------------------
  // Favourites mode

  /** `fetchFavorites` once `getFavorites` settles with `t`: store whatever it
      returned and enter favourites mode. `getFavorites` never throws, so the
      `catch` here is unreachable and the mode is always entered. */
  function FetchFavorites(s: Shell, t: Transport): (r: Shell)
    ensures r.showFavorites
    ensures r.favorites == GetFavorites(t)
    ensures GridParams(r) == GridParams(s)
  {
    s.(favorites := GetFavorites(t), showFavorites := true)
  }

  /** The header button: what the shell becomes, the favourites request it
      issued, if any, and the grid it mounted, if any. The grid is rendered
      only in search mode, so entering favourites mode unmounts it and
      leaving mounts a fresh one. */
  datatype HeaderOutcome = HeaderOutcome(shell: Shell, request: Option<Request>, mounted: Option<Step>)

  /** In favourites mode the button only leaves it, which mounts a fresh grid;
      in search mode it fetches the favourites and enters favourites mode,
      whatever the fetch returns. */
  function HeaderClick(s: Shell, t: Transport): (r: HeaderOutcome)
    ensures r.shell.showFavorites == !s.showFavorites
    ensures r.request.Some? <==> !s.showFavorites
    ensures r.request.Some? ==> r.request.value == FavoritesRequest()
    ensures s.showFavorites ==> r.shell.favorites == s.favorites
    ensures !s.showFavorites ==> r.shell.favorites == GetFavorites(t)
    ensures GridParams(r.shell) == GridParams(s)
    ensures r.mounted.Some? <==> s.showFavorites
    ensures r.mounted.Some? ==> r.mounted.value == Mount(GridParams(s))
  {
    if s.showFavorites then HeaderOutcome(s.(showFavorites := false), None, Some(Mount(GridParams(s))))
    else HeaderOutcome(FetchFavorites(s, t), Some(FavoritesRequest()), None)
  }

  /** Two clicks from search mode come back to search mode with the same grid
      key and no second favourites fetch; the grid is mounted afresh, so the
      list loaded before is gone and the first page is asked for again. */
  lemma HeaderRoundTrip(s: Shell, t1: Transport, t2: Transport)
    requires !s.showFavorites
    ensures var r := HeaderClick(HeaderClick(s, t1).shell, t2);
      && !r.shell.showFavorites && r.request.None? && GridKey(r.shell) == GridKey(s)
      && r.mounted == Some(Mount(GridParams(s)))
      && r.mounted.value.state.videos == []
      && r.mounted.value.request.Some?
      && Requested(r.mounted.value.request.value) == StartCursor(s.provider)
  {
  }

  /** The props a favourite card receives. */
  datatype CardProps = CardProps(kind: Value, video: Value, isFavoriteView: bool, refreshes: bool)

  /** `{type: fav.platform, video: {video_id, title, thumbnail}, isFavoriteView: true,
      refreshFavorites: fetchFavorites}`; reading `fav.platform` throws on a nullish entry. */
  function FavoriteCard(fav: Value): (r: Eval<CardProps>)
    ensures r.Thrown? <==> Nullish(fav)
    ensures r.Ok? ==> r.value.kind == Prop(fav, "platform") && r.value.isFavoriteView && r.value.refreshes
    ensures r.Ok? ==> Prop(r.value.video, "video_id") == Prop(fav, "video_id")
    ensures r.Ok? ==> Prop(r.value.video, "title") == Prop(fav, "title")
    ensures r.Ok? ==> Prop(r.value.video, "thumbnail") == Prop(fav, "thumbnail")
    ensures r.Ok? ==> r.value.video.Obj? && r.value.video.fields.Keys == {"video_id", "title", "thumbnail"}
  {
    if Nullish(fav) then Thrown
    else
      var video := Obj(map[
        "video_id" := Prop(fav, "video_id"),
        "title" := Prop(fav, "title"),
        "thumbnail" := Prop(fav, "thumbnail")]);
      Ok(CardProps(Prop(fav, "platform"), video, true, true))
  }

  /** What the favourites area shows. */
  datatype FavoritesView = NoVideoSaved | Cards(cards: seq<CardProps>) | RenderError

  /** `favorites.length`: throws on a nullish value. */
  function Length(v: Value): (r: Eval<Value>)
    ensures r.Thrown? <==> Nullish(v)
    ensures v.Arr? ==> r == Ok(Num(|v.elems|))
    ensures v.Str? ==> r == Ok(Num(|v.s|))
    ensures v.Num? || v.Bool? ==> r == Ok(Undefined)
  {
    match v
    case Undefined => Thrown
    case Null => Thrown
    case Arr(a) => Ok(Num(|a|))
    case Str(s) => Ok(Num(|s|))
    case Obj(_) => Ok(Prop(v, "length"))
    case _ => Ok(Undefined)
  }

  /** Maps each favourite to its card; the first entry that throws fails the render. */
  function MapCards(favs: seq<Value>): (r: Eval<seq<CardProps>>)
    ensures r.Ok? <==> forall k :: 0 <= k < |favs| ==> !Nullish(favs[k])
    ensures r.Ok? ==> |r.value| == |favs|
    ensures r.Ok? ==> forall k :: 0 <= k < |favs| ==> FavoriteCard(favs[k]) == Ok(r.value[k])
    decreases |favs|
  {
    if favs == [] then Ok([])
    else
      match FavoriteCard(favs[0])
      case Thrown => Thrown
      case Ok(c) =>
        match MapCards(favs[1..])
        case Thrown => Thrown
        case Ok(cs) => Ok([c] + cs)
  }

  /** A favourite whose card renders: the entry is not nullish and the card's
      own field derivation does not throw. */
  predicate CardRenders(fav: Value) {
    FavoriteCard(fav).Ok? && Render(FavoriteCard(fav).value.kind, FavoriteCard(fav).value.video).Ok?
  }

  /** `favorites.length === 0 ? "No Video Saved" : favorites.map(...)`. The
      stored value is whatever `getFavorites` returned, so a body that is not
      an array (say an error object) fails the render, and so does one entry
      whose mapping or whose card throws. */
  function RenderFavorites(favs: Value): (r: FavoritesView)
    ensures favs.Arr? ==> (r.NoVideoSaved? <==> favs.elems == [])
    ensures favs.Arr? && r.Cards? ==> |r.cards| == |favs.elems|
    ensures favs.Arr? ==>
      (r.RenderError? <==> exists k :: 0 <= k < |favs.elems| && !CardRenders(favs.elems[k]))
    ensures favs.Arr? && r.Cards? ==> forall k :: 0 <= k < |favs.elems| ==> FavoriteCard(favs.elems[k]) == Ok(r.cards[k])
    ensures r.Cards? ==> forall k :: 0 <= k < |r.cards| ==> Render(r.cards[k].kind, r.cards[k].video).Ok?
    ensures favs.Arr? && (exists k :: 0 <= k < |favs.elems| && Nullish(favs.elems[k])) ==> r.RenderError?
    ensures Nullish(favs) || favs.Num? || favs.Bool? ==> r.RenderError?
    ensures favs.Str? ==> (r.NoVideoSaved? <==> favs.s == "") && !r.Cards?
    ensures favs.Obj? ==> (r.NoVideoSaved? <==> Prop(favs, "length") == Num(0)) && !r.Cards?
  {
    match Length(favs)
    case Thrown => RenderError
    case Ok(len) =>
      if len == Num(0) then NoVideoSaved
      else if !favs.Arr? then RenderError
      else
        match MapCards(favs.elems)
        case Thrown => RenderError
        case Ok(cards) =>
          if forall k :: 0 <= k < |cards| ==> Render(cards[k].kind, cards[k].video).Ok?
          then Cards(cards)
          else RenderError
  }

  /** A saved YouTube favourite with a falsy `video_id` makes its card fall back
      to `video.id.videoId` on a card video that has no `id`, which throws and
      takes the whole favourites area down. */
  lemma FalsyYouTubeFavoriteBreaksFavorites(favs: seq<Value>, k: nat)
    requires k < |favs| && favs[k].Obj?
    requires Prop(favs[k], "platform") == Str("youtube") && !Truthy(Prop(favs[k], "video_id"))
    ensures RenderFavorites(Arr(favs)) == RenderError
  {
    var card := FavoriteCard(favs[k]).value;
    assert Prop(card.video, "id") == Undefined;
    assert !CardRenders(favs[k]);
  }

  /** The favourites view after a failed fetch is the "No Video Saved" message. */
  lemma FailedFetchShowsNothingSaved(s: Shell, t: Transport)
    requires ReadJson(t).Thrown?
    ensures RenderFavorites(FetchFavorites(s, t).favorites) == NoVideoSaved
  {
  }

  /** An error response whose body is an object is stored as the favourites
      (the status is not checked), and the favourites area then fails to render. */
  lemma ErrorBodyBreaksFavorites(s: Shell, detail: string)
    ensures var t := Response(false, Parsed(Obj(map["detail" := Str(detail)])));
      FetchFavorites(s, t).showFavorites && RenderFavorites(FetchFavorites(s, t).favorites) == RenderError
  {
    var body := Obj(map["detail" := Str(detail)]);
    assert Prop(body, "length") == Undefined;
  }

  // ---------------------------------------------------------------------------
  // Save, list, play, delete

  /** The record the backend lists for a saved payload: the posted fields and
      a backend-assigned `id`. */
  function StoredRecord(p: SavePayload, recordId: Value): Value {
    Obj(map[
      "id" := recordId,
      "platform" := p.platform,
      "video_id" := p.video_id,
      "title" := p.title,
      "thumbnail" := p.thumbnail])
  }

  /** Saving a card and listing it back gives a favourite card of the same
      platform and id, so it plays the same video and deletes the same record
      path; title and thumbnail come back as saved when they were truthy. */
  lemma SaveThenListRoundTrip(kind: Value, video: Value, recordId: Value)
    requires Fields(kind, video).Ok? && Truthy(Fields(kind, video).value.vId)
    ensures var f := Fields(kind, video).value;
      var card := FavoriteCard(StoredRecord(Payload(kind, f), recordId));
      && card.Ok? && card.value.kind == kind
      && Fields(card.value.kind, card.value.video)
         == Ok(CardFields(Or(f.title, Undefined), Or(f.thumb, Undefined), f.vId))
      && Render(card.value.kind, card.value.video) == Ok(Shown(CardFields(Or(f.title, Undefined), Or(f.thumb, Undefined), f.vId)))
      && EmbedUrl(card.value.kind, f.vId) == EmbedUrl(kind, f.vId)
  {
    var f := Fields(kind, video).value;
    var rec := StoredRecord(Payload(kind, f), recordId);
    assert Prop(rec, "platform") == kind;
    assert Prop(rec, "video_id") == f.vId;
    assert Prop(rec, "title") == f.title;
    assert Prop(rec, "thumbnail") == f.thumb;
    var v := FavoriteCard(rec).value.video;
    assert Prop(v, "video_id") == f.vId;
    assert Prop(v, "title") == f.title;
    assert Prop(v, "thumbnail") == f.thumb;
    assert Prop(v, "snippet") == Undefined;
    assert Prop(v, "thumbnail_480_url") == Undefined;
  }

  /** Confirming a delete from the favourites area: on success the list is
      fetched again (favourites mode is kept); on failure nothing changes. */
  function DeleteFromFavorites(s: Shell, vId: Value, tDelete: Transport, tList: Transport): (r: Shell)
    requires s.showFavorites
    ensures r.showFavorites
    ensures !(tDelete.Response? && tDelete.ok) ==> r == s
    ensures tDelete.Response? && tDelete.ok ==> r.favorites == GetFavorites(tList)
  {
    if ConfirmDelete(vId, tDelete, true).refresh then FetchFavorites(s, tList) else s
  }

  /** The shell starts on a YouTube grid that asks for "trending" in English
      from the first page. */
  lemma InitialShellLoadsTrending()
    ensures Mount(GridParams(InitialShell())).request == Some(YouTubeSearch("trending", Str(""), "en"))
    ensures RenderFavorites(InitialShell().favorites) == NoVideoSaved
  {
  }
}

=== FILE: js.dfy ===
/**
  The slice of JavaScript value semantics the client's logic depends on:
  the values a JSON response can carry (plus `undefined`), truthiness, the
  `||` default idiom, property access with and without optional chaining,
  and the string a template literal `${v}` produces.
 */
module Js {
  import opened Text

  /** A JavaScript value as this client observes it. Numbers are modelled as
      integers; an object is a map from its own keys to their values. */
  datatype Value =
    | Undefined
    | Null
    | Bool(b: bool)
    | Num(n: int)
    | Str(s: string)
    | Arr(elems: seq<Value>)
    | Obj(fields: map<string, Value>)

  datatype Option<+T> = None | Some(value: T)

  /** The outcome of evaluating an expression that may throw. */
  datatype Eval<+T> = Ok(value: T) | Thrown

  predicate Nullish(v: Value) {
    v.Undefined? || v.Null?
  }

  /** JavaScript's ToBoolean. */
  predicate Truthy(v: Value) {
    match v
    case Undefined => false
    case Null => false
    case Bool(b) => b
    case Num(n) => n != 0
    case Str(s) => s != ""
    case Arr(_) => true
    case Obj(_) => true
  }

  /** `a || b`: the left operand when it is truthy, the right one otherwise. */
  function Or(a: Value, b: Value): (r: Value)
    ensures r == a || r == b
    ensures Truthy(r) <==> Truthy(a) || Truthy(b)
    ensures Truthy(a) ==> r == a
    ensures !Truthy(a) ==> r == b
  {
    if Truthy(a) then a else b
  }

  /** The value of own property `k` of a non-nullish value. JSON arrays and
      strings have no own properties among the keys this client reads. */
  function Prop(v: Value, k: string): Value {
    if v.Obj? && k in v.fields then v.fields[k] else Undefined
  }

  /** `v?.k`: `undefined` on a nullish base instead of a TypeError. */
  function OptChain(v: Value, k: string): (r: Value)
    ensures Nullish(v) ==> r == Undefined
    ensures v.Obj? && k in v.fields ==> r == v.fields[k]
    ensures !(v.Obj? && k in v.fields) ==> r == Undefined
  {
    if Nullish(v) then Undefined else Prop(v, k)
  }

  /** `v.k`: throws a TypeError on a nullish base. */
  function Member(v: Value, k: string): (r: Eval<Value>)
    ensures r.Thrown? <==> Nullish(v)
    ensures r.Ok? ==> r.value == OptChain(v, k)
  {
    if Nullish(v) then Thrown else Ok(Prop(v, k))
  }

  /** `v?.k1?.k2?.…`: follows a chain of keys, `undefined` as soon as a link is missing. */
  function Path(v: Value, ks: seq<string>): Value
    decreases |ks|
  {
    if ks == [] then v else Path(OptChain(v, ks[0]), ks[1..])
  }

  /** An optional chain through objects that have every key yields the leaf. */
  lemma {:induction false} PathThroughObjects(k: string, ks: seq<string>, leaf: Value)
    ensures Path(Nest([k] + ks, leaf), [k] + ks) == leaf
    decreases |ks|
  {
    assert ([k] + ks)[1..] == ks;
    if ks != [] {
      PathThroughObjects(ks[0], ks[1..], leaf);
      assert [ks[0]] + ks[1..] == ks;
    }
  }

  /** An optional chain that meets a nullish link yields `undefined`, however long it is. */
  lemma {:induction false} PathThroughNullish(v: Value, ks: seq<string>)
    requires Nullish(v)
    ensures Nullish(Path(v, ks))
    ensures ks != [] ==> Path(v, ks) == Undefined
    decreases |ks|
  {
    if ks != [] {
      PathThroughNullish(OptChain(v, ks[0]), ks[1..]);
    }
  }

  /** `{k1: {k2: … {kn: leaf}}}` */
  function Nest(ks: seq<string>, leaf: Value): Value
    decreases |ks|
  {
    if ks == [] then leaf else Obj(map[ks[0] := Nest(ks[1..], leaf)])
  }

  /** The string a template literal `${v}` substitutes for `v` (JavaScript's ToString). */
  function ToStr(v: Value): (r: string)
    ensures v.Str? ==> r == v.s
    ensures v == Arr([]) ==> r == ""
    ensures v.Obj? ==> r == "[object Object]"
    ensures v == Undefined ==> r == "undefined"
    ensures v == Null ==> r == "null"
    decreases v, 1
  {
    match v
    case Undefined => "undefined"
    case Null => "null"
    case Bool(b) => if b then "true" else "false"
    case Num(n) => IntToDecimal(n)
    case Str(s) => s
    case Arr(a) => JoinElems(v, a)
    case Obj(_) => "[object Object]"
  }

  /** `Array.prototype.join(",")`, which writes `null` and `undefined` elements as "". */
  function JoinElems(ghost whole: Value, a: seq<Value>): string
    requires whole.Arr? && |a| <= |whole.elems| && a == whole.elems[|whole.elems| - |a|..]
    decreases whole, 0, |a|
  {
    if a == [] then ""
    else
      var first := if Nullish(a[0]) then "" else ToStr(a[0]);
      if |a| == 1 then first else first + "," + JoinElems(whole, a[1..])
  }
}

=== FILE: text.dfy ===
/**
  String helpers the client relies on: `String.prototype.trim`, the decimal
  rendering of page numbers, and the `k=v&k=v` query strings the search URLs
  are built from.
 */
module Text {

  /** The characters `String.prototype.trim` removes: ECMAScript WhiteSpace
      and LineTerminator code points. */
  predicate IsTrimmable(c: char) {
    || c == ' ' || c == '\t' || c == '\n' || c == '\U{000B}' || c == '\U{000C}' || c == '\r'
    || c == '\U{00A0}' || c == '\U{1680}' || ('\U{2000}' <= c <= '\U{200A}')
    || c == '\U{2028}' || c == '\U{2029}' || c == '\U{202F}' || c == '\U{205F}'
    || c == '\U{3000}' || c == '\U{FEFF}'
  }

  predicate AllTrimmable(s: string) {
    forall i :: 0 <= i < |s| ==> IsTrimmable(s[i])
  }

  /** Drops the leading trimmable characters. */
  function TrimStart(s: string): string {
    if s == [] || !IsTrimmable(s[0]) then s else TrimStart(s[1..])
  }

  /** Drops the trailing trimmable characters. */
  function TrimEnd(s: string): string {
    if s == [] || !IsTrimmable(s[|s| - 1]) then s else TrimEnd(s[..|s| - 1])
  }

  /** `s.trim()`: empty, or a piece of the input that starts and ends with a
      character other than white space. */
  function Trim(s: string): (r: string)
    ensures |r| <= |s|
    ensures r == [] || (!IsTrimmable(r[0]) && !IsTrimmable(r[|r| - 1]))
  {
    TrimStartDrops(s);
    TrimEndDrops(TrimStart(s));
    var r := TrimEnd(TrimStart(s));
    assert r != [] ==> r[0] == TrimStart(s)[0];
    r
  }

  /** `TrimStart` removes a prefix of trimmable characters and stops at the
      first other character. */
  lemma {:induction false} TrimStartDrops(s: string)
    ensures |TrimStart(s)| <= |s| && TrimStart(s) == s[|s| - |TrimStart(s)|..]
    ensures AllTrimmable(s[..|s| - |TrimStart(s)|])
    ensures TrimStart(s) == [] || !IsTrimmable(TrimStart(s)[0])
    decreases |s|
  {
    if s != [] && IsTrimmable(s[0]) {
      var r := TrimStart(s[1..]);
      TrimStartDrops(s[1..]);
      assert s[1..][..|s[1..]| - |r|] == s[1..|s| - |r|];
      assert s[..|s| - |r|] == [s[0]] + s[1..|s| - |r|];
    }
  }

  /** `TrimEnd` removes a suffix of trimmable characters and stops at the
      last other character. */
  lemma {:induction false} TrimEndDrops(s: string)
    ensures |TrimEnd(s)| <= |s| && TrimEnd(s) == s[..|TrimEnd(s)|]
    ensures AllTrimmable(s[|TrimEnd(s)|..])
    ensures TrimEnd(s) == [] || !IsTrimmable(TrimEnd(s)[|TrimEnd(s)| - 1])
    decreases |s|
  {
    if s != [] && IsTrimmable(s[|s| - 1]) {
      var r := TrimEnd(s[..|s| - 1]);
      TrimEndDrops(s[..|s| - 1]);
      assert s[..|s| - 1][|r|..] == s[|r|..|s| - 1];
      assert s[|r|..] == s[|r|..|s| - 1] + [s[|s| - 1]];
    }
  }

  /** `s.trim() === ""` holds exactly for strings made only of white space. */
  lemma TrimEmptyIff(s: string)
    ensures Trim(s) == "" <==> AllTrimmable(s)
  {
    var t := TrimStart(s);
    TrimStartDrops(s);
    TrimEndDrops(t);
    var n := |s| - |t|;
    if Trim(s) == "" {
      assert t[|Trim(s)|..] == t;
      forall i | 0 <= i < |s|
        ensures IsTrimmable(s[i])
      {
        assert s[i] == s[..n][i];
      }
    } else {
      assert t[0] == s[n];
    }
  }

  /** Trimming keeps the inner text: the result is a slice of the input. */
  lemma TrimIsSlice(s: string)
    ensures exists i, j :: 0 <= i <= j <= |s| && Trim(s) == s[i..j]
  {
    var t := TrimStart(s);
    TrimStartDrops(s);
    TrimEndDrops(t);
    var i := |s| - |t|;
    var j := i + |Trim(s)|;
    assert Trim(s) == s[i..j];
  }

  // ---------------------------------------------------------------------------
  // Decimal rendering of non-negative integers (`${page}`)

  function DigitChar(d: nat): char
    requires d < 10
  {
    "0123456789"[d]
  }

  function DigitValue(c: char): nat {
    if '0' <= c <= '9' then (c as int - '0' as int) as nat else 0
  }

  predicate IsDigits(s: string) {
    forall i :: 0 <= i < |s| ==> '0' <= s[i] <= '9'
  }

  /** The shortest decimal spelling of `n`, as JavaScript prints an integer. */
  function NatToDecimal(n: nat): (r: string)
    ensures |r| >= 1 && IsDigits(r)
    ensures |r| > 1 ==> r[0] != '0'
    decreases n
  {
    if n < 10 then [DigitChar(n)]
    else NatToDecimal(n / 10) + [DigitChar(n % 10)]
  }

  /** Reads a string of decimal digits back as a number. */
  function DecimalValue(s: string): nat
    decreases |s|
  {
    if s == [] then 0
    else DecimalValue(s[..|s| - 1]) * 10 + DigitValue(s[|s| - 1])
  }

  /** Printing a page number and reading it back gives the same number. */
  lemma {:induction false} DecimalRoundTrip(n: nat)
    ensures DecimalValue(NatToDecimal(n)) == n
    decreases n
  {
    var r := NatToDecimal(n);
    if n < 10 {
      assert r[..|r| - 1] == [];
    } else {
      DecimalRoundTrip(n / 10);
      assert r[..|r| - 1] == NatToDecimal(n / 10);
    }
  }

  /** JavaScript's `String(n)` for an integer. */
  function IntToDecimal(n: int): (r: string)
    ensures |r| >= 1
    ensures n < 0 <==> r[0] == '-'
  {
    if n < 0 then "-" + NatToDecimal(-n) else NatToDecimal(n)
  }

  // ---------------------------------------------------------------------------
  // Splitting and query strings

  /** Index of the first occurrence of `c` in `s`. */
  function IndexOf(s: string, c: char): (i: nat)
    requires c in s
    ensures i < |s| && s[i] == c && c !in s[..i]
  {
    if s[0] == c then 0
    else
      assert s == [s[0]] + s[1..];
      var j := IndexOf(s[1..], c);
      assert s[..j + 1] == [s[0]] + s[1..][..j];
      j + 1
  }

  /** `s.split(sep)` for a one-character separator. */
  function SplitOn(s: string, sep: char): (parts: seq<string>)
    ensures |parts| >= 1
    ensures forall k :: 0 <= k < |parts| ==> sep !in parts[k]
    decreases |s|
  {
    if sep !in s then [s]
    else
      var i := IndexOf(s, sep);
      [s[..i]] + SplitOn(s[i + 1..], sep)
  }

  /** Gluing pieces with `sep` and splitting on `sep` gives the pieces back,
      as long as no piece contains `sep`. */
  lemma {:induction false} SplitJoin(pieces: seq<string>, sep: char)
    requires |pieces| >= 1
    requires forall k :: 0 <= k < |pieces| ==> sep !in pieces[k]
    ensures SplitOn(JoinWith(pieces, sep), sep) == pieces
    decreases |pieces|
  {
    if |pieces| > 1 {
      var a := pieces[0];
      var rest := JoinWith(pieces[1..], sep);
      var s := a + [sep] + rest;
      assert JoinWith(pieces, sep) == s;
      FirstSeparator(a, rest, sep);
      assert s[..|a|] == a && s[|a| + 1..] == rest;
      SplitJoin(pieces[1..], sep);
      assert pieces == [a] + pieces[1..];
    }
  }

  /** The first separator of `a + [sep] + rest` is the one right after `a`. */
  lemma FirstSeparator(a: string, rest: string, sep: char)
    requires sep !in a
    ensures sep in a + [sep] + rest
    ensures IndexOf(a + [sep] + rest, sep) == |a|
  {
    var s := a + [sep] + rest;
    assert s[|a|] == sep;
    assert s[..|a|] == a;
  }

  /** Two strings that both read `prefix, sep, rest` with a separator-free
      prefix split the same way: the prefix and the rest are determined. */
  lemma SplitAtFirst(a: string, rest: string, a': string, rest': string, sep: char)
    requires sep !in a && sep !in a'
    requires a + [sep] + rest == a' + [sep] + rest'
    ensures a == a' && rest == rest'
  {
    var s := a + [sep] + rest;
    FirstSeparator(a, rest, sep);
    FirstSeparator(a', rest', sep);
    assert a == s[..|a|] && a' == s[..|a'|];
    assert rest == s[|a| + 1..] && rest' == s[|a'| + 1..];
  }

  /** `pieces.join(sep)` */
  function JoinWith(pieces: seq<string>, sep: char): string
    requires |pieces| >= 1
    decreases |pieces|
  {
    if |pieces| == 1 then pieces[0]
    else pieces[0] + [sep] + JoinWith(pieces[1..], sep)
  }

  /** A query parameter as written into a URL, `name=value`. */
  function Param(p: (string, string)): string {
    p.0 + "=" + p.1
  }

  /** `name1=value1&name2=value2&…`, in the given order. */
  function QueryString(ps: seq<(string, string)>): string
    requires |ps| >= 1
  {
    JoinWith(seq(|ps|, k requires 0 <= k < |ps| => Param(ps[k])), '&')
  }

  /** Reads one `name=value` piece, splitting at the first `=`. */
  function ReadParam(piece: string): (string, string) {
    if '=' in piece then
      var i := IndexOf(piece, '=');
      (piece[..i], piece[i + 1..])
    else (piece, "")
  }

  /** Reads a query string back into its parameters, in order. */
  function ReadQuery(q: string): (ps: seq<(string, string)>)
    ensures |ps| >= 1
  {
    var pieces := SplitOn(q, '&');
    seq(|pieces|, k requires 0 <= k < |pieces| => ReadParam(pieces[k]))
  }

  /** Parameters survive being written into a query string when no name holds
      `&` or `=` and no value holds `&`; a value may hold `=`. */
  predicate Readable(ps: seq<(string, string)>) {
    forall k :: 0 <= k < |ps| ==> '&' !in ps[k].0 && '=' !in ps[k].0 && '&' !in ps[k].1
  }

  lemma QueryRoundTrip(ps: seq<(string, string)>)
    requires |ps| >= 1 && Readable(ps)
    ensures ReadQuery(QueryString(ps)) == ps
  {
    var pieces := seq(|ps|, k requires 0 <= k < |ps| => Param(ps[k]));
    forall k | 0 <= k < |pieces|
      ensures '&' !in pieces[k]
      ensures ReadParam(pieces[k]) == ps[k]
    {
      assert pieces[k] == ps[k].0 + ['='] + ps[k].1;
      FirstSeparator(ps[k].0, ps[k].1, '=');
      assert ps[k].0 == pieces[k][..|ps[k].0|];
    }
    SplitJoin(pieces, '&');
  }
}

=== FILE: video_card.dfy ===
/**
  `VideoCard`: the fields a card derives from a normalised or raw provider
  item, whether it renders at all, and what its save, delete and play
  actions send and show. Toasts are reduced to their kind.
 */
module VideoCard {
  import opened Js
  import opened Api

  /** The `title`, `thumb` and `vId` a card derives. */
  datatype CardFields = CardFields(title: Value, thumb: Value, vId: Value)

  /** A card either renders nothing (`return null`) or shows its fields. */
  datatype Card = Nothing | Shown(fields: CardFields)

  datatype Toast = NoToast | SuccessToast | ErrorToast

  predicate IsYouTube(kind: Value) {
    kind == Str("youtube")
  }

  /** `video?.title || video?.snippet?.title` */
  function Title(video: Value): (r: Value)
    ensures Truthy(OptChain(video, "title")) ==> r == OptChain(video, "title")
    ensures !Truthy(OptChain(video, "title")) ==> r == Path(video, ["snippet", "title"])
  {
    Or(OptChain(video, "title"), OptChain(OptChain(video, "snippet"), "title"))
  }

  /** `video?.thumbnail || (type === "youtube" ? video?.snippet?.thumbnails?.high?.url : video?.thumbnail_480_url)` */
  function Thumb(kind: Value, video: Value): (r: Value)
    ensures Truthy(OptChain(video, "thumbnail")) ==> r == OptChain(video, "thumbnail")
    ensures !Truthy(OptChain(video, "thumbnail")) && IsYouTube(kind) ==>
      r == Path(video, ["snippet", "thumbnails", "high", "url"])
    ensures !Truthy(OptChain(video, "thumbnail")) && !IsYouTube(kind) ==>
      r == OptChain(video, "thumbnail_480_url")
  {
    Or(OptChain(video, "thumbnail"),
      if IsYouTube(kind)
      then OptChain(OptChain(OptChain(OptChain(video, "snippet"), "thumbnails"), "high"), "url")
      else OptChain(video, "thumbnail_480_url"))
  }

  /** `video?.video_id || (type === "youtube" ? (typeof video.id === "string" ? video.id : video.id.videoId) : video.id)`.
      The fallback uses plain member access, so it throws on a nullish video,
      and for YouTube on a nullish `id`. */
  function VideoId(kind: Value, video: Value): (r: Eval<Value>)
    ensures r.Thrown? <==>
      !Truthy(OptChain(video, "video_id"))
      && (Nullish(video) || (IsYouTube(kind) && Nullish(Prop(video, "id"))))
    ensures Truthy(OptChain(video, "video_id")) ==> r == Ok(OptChain(video, "video_id"))
    ensures r.Ok? && !Truthy(OptChain(video, "video_id")) && !IsYouTube(kind) ==>
      r.value == Prop(video, "id")
    ensures r.Ok? && !Truthy(OptChain(video, "video_id")) && IsYouTube(kind) ==>
      r.value == (if Prop(video, "id").Str? then Prop(video, "id") else Prop(Prop(video, "id"), "videoId"))
  {
    if Truthy(OptChain(video, "video_id")) then Ok(OptChain(video, "video_id"))
    else
      match Member(video, "id")
      case Thrown => Thrown
      case Ok(id) =>
        if !IsYouTube(kind) then Ok(id)
        else if id.Str? then Ok(id)
        else Member(id, "videoId")
  }

  /** The data mapping at the top of the component. */
  function Fields(kind: Value, video: Value): (r: Eval<CardFields>)
    ensures r.Ok? <==> VideoId(kind, video).Ok?
    ensures r.Ok? ==> r.value == CardFields(Title(video), Thumb(kind, video), VideoId(kind, video).value)
  {
    match VideoId(kind, video)
    case Thrown => Thrown
    case Ok(vId) => Ok(CardFields(Title(video), Thumb(kind, video), vId))
  }

  /** `if (!vId) return null;` */
  function Render(kind: Value, video: Value): (r: Eval<Card>)
    ensures r.Ok? <==> Fields(kind, video).Ok?
    ensures r.Ok? ==> (r.value.Shown? <==> Truthy(Fields(kind, video).value.vId))
    ensures r.Ok? && r.value.Shown? ==> r.value.fields == Fields(kind, video).value
  {
    match Fields(kind, video)
    case Thrown => Thrown
    case Ok(f) => if Truthy(f.vId) then Ok(Shown(f)) else Ok(Nothing)
  }

  // ---------------------------------------------------------------------------
  // Actions

  /** The body `handleSaveVideo` posts. */
  datatype SavePayload = SavePayload(platform: Value, video_id: Value, title: Value, thumbnail: Value)

  function Payload(kind: Value, f: CardFields): (r: SavePayload)
    ensures r.platform == kind && r.video_id == f.vId
    ensures r.title == f.title && r.thumbnail == f.thumb
  {
    SavePayload(kind, f.vId, f.title, f.thumb)
  }

  /** `handleSaveVideo` once the save settles with `t`: a success toast exactly
      when the backend answered with an ok status, an error toast otherwise.
      `saveVideo` never throws, so the "Something went wrong" path is unreachable. */
  function SaveToast(t: Transport): (r: Toast)
    ensures r == SuccessToast <==> t.Response? && t.ok
    ensures r != NoToast
  {
    if SaveVideo(t) then SuccessToast else ErrorToast
  }

  /** What `handleSaveVideo` does: the request, the JSON body it posts, and the toast. */
  datatype SaveEffect = SaveEffect(request: Request, body: SavePayload, toast: Toast)

  /** `handleSaveVideo` for a card with fields `f`, once the save settles with `t`. */
  function HandleSave(kind: Value, f: CardFields, t: Transport): (r: SaveEffect)
    ensures r.request.verb == Post && r.request.url == BaseUrl + "/save-video"
    ensures r.body.platform == kind && r.body.video_id == f.vId
    ensures r.body.title == f.title && r.body.thumbnail == f.thumb
    ensures r.toast == SuccessToast <==> t.Response? && t.ok
    ensures r.toast != NoToast
  {
    SaveEffect(SaveRequest(), Payload(kind, f), SaveToast(t))
  }

  /** What confirming a delete does. */
  datatype DeleteEffect = DeleteEffect(request: Request, toast: Toast, refresh: bool, closeModal: bool)

  /** `confirmDelete` once the delete settles with `t`. `hasRefresh` says
      whether a `refreshFavorites` callback was passed. */
  function ConfirmDelete(vId: Value, t: Transport, hasRefresh: bool): (r: DeleteEffect)
    ensures r.request == DeleteRequest(vId)
    ensures r.refresh <==> t.Response? && t.ok && hasRefresh
    ensures r.toast == SuccessToast <==> t.Response? && t.ok
    ensures r.toast != ErrorToast
    ensures r.closeModal
  {
    var success := DeleteFavorite(t);
    DeleteEffect(DeleteRequest(vId), if success then SuccessToast else NoToast, success && hasRefresh, true)
  }

  const YouTubeEmbed := "https://www.youtube.com/embed/"
  const DailymotionEmbed := "https://www.dailymotion.com/embed/video/"
  const Autoplay := "?autoplay=1"

  /** The player iframe's `src`. */
  function EmbedUrl(kind: Value, vId: Value): (r: string)
    ensures IsYouTube(kind) <==> |YouTubeEmbed| <= |r| && r[..|YouTubeEmbed|] == YouTubeEmbed
    ensures !IsYouTube(kind) <==> |DailymotionEmbed| <= |r| && r[..|DailymotionEmbed|] == DailymotionEmbed
    ensures |r| >= |Autoplay| && r[|r| - |Autoplay|..] == Autoplay
    ensures var prefix := if IsYouTube(kind) then YouTubeEmbed else DailymotionEmbed;
      |r| == |prefix| + |ToStr(vId)| + |Autoplay| && r[|prefix|..|r| - |Autoplay|] == ToStr(vId)
  {
    var prefix := if IsYouTube(kind) then YouTubeEmbed else DailymotionEmbed;
    var r := prefix + ToStr(vId) + Autoplay;
    assert r[..|prefix|] == prefix;
    assert YouTubeEmbed[12] != DailymotionEmbed[12];
    assert r[|r| - |Autoplay|..] == Autoplay;
    assert r[|prefix|..|r| - |Autoplay|] == ToStr(vId);
    r
  }

  // ---------------------------------------------------------------------------
  // The item shapes a card meets

  /** A raw YouTube search result: `{id: {videoId}, snippet: {title, thumbnails: {high: {url}}}}`. */
  function RawYouTubeItem(videoId: string, title: string, url: string): Value {
    Obj(map[
      "id" := Obj(map["videoId" := Str(videoId)]),
      "snippet" := Obj(map[
        "title" := Str(title),
        "thumbnails" := Obj(map["high" := Obj(map["url" := Str(url)])])])])
  }

  /** A raw Dailymotion result: `{id, title, thumbnail_480_url}`. */
  function RawDailymotionItem(id: string, title: string, url: string): Value {
    Obj(map["id" := Str(id), "title" := Str(title), "thumbnail_480_url" := Str(url)])
  }

  /** A raw YouTube result is read through its nested fields and renders when its id is non-empty. */
  lemma ReadsRawYouTubeItem(videoId: string, title: string, url: string)
    ensures Fields(Str("youtube"), RawYouTubeItem(videoId, title, url))
         == Ok(CardFields(Str(title), Str(url), Str(videoId)))
    ensures Render(Str("youtube"), RawYouTubeItem(videoId, title, url)).Ok?
    ensures Render(Str("youtube"), RawYouTubeItem(videoId, title, url)).value.Shown? <==> videoId != ""
  {
    var v := RawYouTubeItem(videoId, title, url);
    var snippet := Prop(v, "snippet");
    assert Prop(snippet, "title") == Str(title);
    assert Prop(Prop(Prop(snippet, "thumbnails"), "high"), "url") == Str(url);
    assert Prop(Prop(v, "id"), "videoId") == Str(videoId);
  }

  /** A raw Dailymotion result is read through its flat fields; an empty
      title falls through to the (absent) snippet title. */
  lemma ReadsRawDailymotionItem(id: string, title: string, url: string)
    ensures Fields(Str("dailymotion"), RawDailymotionItem(id, title, url))
         == Ok(CardFields(if title == "" then Undefined else Str(title), Str(url), Str(id)))
    ensures Render(Str("dailymotion"), RawDailymotionItem(id, title, url)).value.Shown? <==> id != ""
  {
    var v := RawDailymotionItem(id, title, url);
    assert Prop(v, "title") == Str(title);
    assert Prop(v, "thumbnail_480_url") == Str(url);
    assert Prop(v, "id") == Str(id);
  }

  /** A YouTube item without a `video_id` and without an `id` makes the card throw. */
  lemma YouTubeItemWithoutIdThrows(title: string)
    ensures Render(Str("youtube"), Obj(map["title" := Str(title)])).Thrown?
    ensures Render(Str("dailymotion"), Obj(map["title" := Str(title)])) == Ok(Nothing)
  {
    assert Prop(Obj(map["title" := Str(title)]), "id") == Undefined;
  }

  /** An item with no own `title` or `thumbnail` whose `snippet` is missing
      gets an `undefined` title, and for YouTube an `undefined` thumbnail: the
      optional chains stop at the missing snippet instead of throwing. */
  lemma SnippetlessItemHasNoTitleOrThumb(kind: Value, video: Value)
    requires !Truthy(OptChain(video, "title")) && !Truthy(OptChain(video, "thumbnail"))
    requires Nullish(OptChain(video, "snippet"))
    ensures Title(video) == Undefined
    ensures IsYouTube(kind) ==> Thumb(kind, video) == Undefined
  {
    var snippet := OptChain(video, "snippet");
    PathThroughNullish(snippet, ["title"]);
    assert Path(video, ["snippet", "title"]) == Path(snippet, ["title"]);
    PathThroughNullish(snippet, ["thumbnails", "high", "url"]);
    assert Path(video, ["snippet", "thumbnails", "high", "url"]) == Path(snippet, ["thumbnails", "high", "url"]);
  }

  /** A YouTube item that carries only `snippet.thumbnails.high.url` shows
      that URL as its thumbnail. */
  lemma NestedYouTubeThumbnail(url: string)
    ensures Thumb(Str("youtube"), Nest(["snippet", "thumbnails", "high", "url"], Str(url))) == Str(url)
  {
    var ks := ["snippet", "thumbnails", "high", "url"];
    var video := Nest(ks, Str(url));
    assert [ks[0]] + ks[1..] == ks;
    PathThroughObjects(ks[0], ks[1..], Str(url));
    assert OptChain(video, "thumbnail") == Undefined;
  }
}

=== FILE: video_grid.dfy ===
/**
  The incremental loader of `VideoGrid`: the accumulated list, the page
  cursor and the `loading`/`hasMore` flags of one grid instance, and the
  transitions `loadData`, the reset effect and the scroll trigger apply to
  them. State updates are applied at once and in order; what the awaited
  remote call resolves with is an input (`Reply`, built from a transport
  outcome by `Fetch`).
 */
module VideoGrid {
  import opened Js
  import opened Text
  import opened Api

  datatype Provider = YouTube | Dailymotion

  /** The `type` string the shell passes down for a provider. */
  function TypeName(p: Provider): (name: string)
    ensures '-' !in name
  {
    match p
    case YouTube => "youtube"
    case Dailymotion => "dailymotion"
  }

  /** The grid's props. The shell remounts the grid whenever one of them changes. */
  datatype Params = Params(provider: Provider, query: string, lang: string)

  /** `nextPage`: a continuation token for YouTube, a 1-based page counter for Dailymotion. */
  datatype Cursor = Token(token: Value) | Page(page: nat)

  datatype LoaderState = LoaderState(videos: seq<Value>, nextPage: Cursor, loading: bool, hasMore: bool)

  /** The search a load asks the remote client for. */
  datatype Search =
    | YouTubeSearch(q: string, pageToken: Value, lang: string)
    | DailymotionSearch(page: nat, q: string, lang: string)

  /** A transition that may issue a search: the new state and the search, if any. */
  datatype Step = Step(state: LoaderState, request: Option<Search>)

  /** `type === "youtube" ? "" : 1` */
  function StartCursor(p: Provider): (c: Cursor)
    ensures p == YouTube ==> c == Token(Str(""))
    ensures p == Dailymotion ==> c == Page(1)
  {
    match p
    case YouTube => Token(Str(""))
    case Dailymotion => Page(1)
  }

  /** A cursor of the provider's own encoding; Dailymotion pages count from 1. */
  predicate CursorFits(p: Provider, c: Cursor) {
    match p
    case YouTube => c.Token?
    case Dailymotion => c.Page? && c.page >= 1
  }

  /** The invariant every reachable state of a grid instance keeps. */
  predicate Inv(p: Params, s: LoaderState) {
    CursorFits(p.provider, s.nextPage)
  }

  /** The `useState` initial values. */
  function Initial(p: Params): (s: LoaderState)
    ensures s.videos == [] && !s.loading && s.hasMore
    ensures s.nextPage == StartCursor(p.provider) && Inv(p, s)
  {
    LoaderState([], StartCursor(p.provider), false, true)
  }

  /** The term sent upstream: "trending" for a blank query, the query itself
      (untrimmed) otherwise. */
  function SearchTerm(query: string): (t: string)
    ensures AllTrimmable(query) ==> t == "trending"
    ensures !AllTrimmable(query) ==> t == query
  {
    TrimEmptyIff(query);
    if Trim(query) == "" then "trending" else query
  }

  /** The cursor a search asks for. */
  function Requested(q: Search): Cursor {
    match q
    case YouTubeSearch(_, token, _) => Token(token)
    case DailymotionSearch(page, _, _) => Page(page)
  }

  /** `loadData(isInitial)` up to the await: a no-op while a load is in
      flight, otherwise raise `loading` and issue the search for the start
      cursor (initial load) or the stored one (later load). */
  function StartLoad(p: Params, s: LoaderState, isInitial: bool): (r: Step)
    requires Inv(p, s)
    ensures s.loading <==> r.request.None?
    ensures s.loading ==> r.state == s
    ensures !s.loading ==> r.state == s.(loading := true)
    ensures Inv(p, r.state)
    ensures r.request.Some? ==>
      && Requested(r.request.value) == (if isInitial then StartCursor(p.provider) else s.nextPage)
      && r.request.value.q == SearchTerm(p.query)
      && r.request.value.lang == p.lang
      && (r.request.value.YouTubeSearch? <==> p.provider == YouTube)
  {
    if s.loading then Step(s, None)
    else
      var page := if isInitial then StartCursor(p.provider) else s.nextPage;
      var term := SearchTerm(p.query);
      var search := match p.provider
        case YouTube => YouTubeSearch(term, page.token, p.lang)
        case Dailymotion => DailymotionSearch(page.page, term, p.lang);
      Step(s.(loading := true), Some(search))
  }

  /** `data.items || []` (or `data.list || []`) as the list the grid stores.
      A truthy value that is not an array cannot be stored as a list; the
      model treats it as a load that threw. */
  function AsList(v: Value): (r: Eval<seq<Value>>)
    ensures r.Ok? <==> v.Arr? || !Truthy(v)
    ensures v.Arr? ==> r == Ok(v.elems)
    ensures !Truthy(v) ==> r == Ok([])
  {
    match Or(v, Arr([]))
    case Arr(a) => Ok(a)
    case _ => Thrown
  }

  /** The `catch`/`finally` path: only `loading` is cleared. */
  function Fail(s: LoaderState): (r: LoaderState)
    ensures !r.loading
    ensures r.videos == s.videos && r.nextPage == s.nextPage && r.hasMore == s.hasMore
  {
    s.(loading := false)
  }

  /** The YouTube branch after the await: replace or append the items, store
      the returned token (or ""), and keep going exactly when it is truthy. */
  function CompleteYouTube(s: LoaderState, isInitial: bool, page: YouTubePage): (r: LoaderState)
    ensures !r.loading
    ensures AsList(page.items).Thrown? ==> r == Fail(s)
    ensures AsList(page.items).Ok? ==>
      && r.videos == (if isInitial then [] else s.videos) + AsList(page.items).value
      && r.nextPage == Token(Or(page.nextPageToken, Str("")))
      && (r.hasMore <==> Truthy(page.nextPageToken))
  {
    match AsList(page.items)
    case Thrown => Fail(s)
    case Ok(newItems) =>
      LoaderState(
        if isInitial then newItems else s.videos + newItems,
        Token(Or(page.nextPageToken, Str(""))),
        false,
        Truthy(page.nextPageToken))
  }

  /** The Dailymotion branch after the await: replace or append the list,
      move to page 2 after an initial load and one page on otherwise (even
      when the list is empty), and take `has_more || false` for `hasMore`. */
  function CompleteDailymotion(s: LoaderState, isInitial: bool, page: DailymotionPage): (r: LoaderState)
    requires isInitial || s.nextPage.Page?
    ensures !r.loading
    ensures AsList(page.list).Thrown? ==> r == Fail(s)
    ensures AsList(page.list).Ok? ==>
      && r.videos == (if isInitial then [] else s.videos) + AsList(page.list).value
      && r.nextPage == (if isInitial then Page(2) else Page(s.nextPage.page + 1))
      && (r.hasMore <==> Truthy(page.has_more))
  {
    match AsList(page.list)
    case Thrown => Fail(s)
    case Ok(newItems) =>
      LoaderState(
        if isInitial then newItems else s.videos + newItems,
        if isInitial then Page(2) else Page(s.nextPage.page + 1),
        false,
        Truthy(Or(page.has_more, Bool(false))))
  }

  /** What the awaited `apiService` call resolves with: the provider's page record. */
  datatype Reply = YouTubeReply(yt: YouTubePage) | DailymotionReply(dm: DailymotionPage)

  /** A grid only ever calls its own provider's search. */
  predicate Answers(p: Provider, reply: Reply) {
    reply.YouTubeReply? <==> p == YouTube
  }

  /** The reply the provider's search gives for transport outcome `t`. */
  function Fetch(p: Provider, t: Transport): (reply: Reply)
    ensures Answers(p, reply)
    ensures p == YouTube ==> reply == YouTubeReply(GetYouTubeVideos(t))
    ensures p == Dailymotion ==> reply == DailymotionReply(GetDailymotionVideos(t))
  {
    match p
    case YouTube => YouTubeReply(GetYouTubeVideos(t))
    case Dailymotion => DailymotionReply(GetDailymotionVideos(t))
  }

  /** `data.items` (or `data.list`): the field the grid reads the new videos from. */
  function ListOf(reply: Reply): Value {
    match reply
    case YouTubeReply(page) => page.items
    case DailymotionReply(page) => page.list
  }

  /** The remainder of `loadData` once the fetch settles with `reply`. */
  function Complete(p: Params, s: LoaderState, isInitial: bool, reply: Reply): (r: LoaderState)
    requires Inv(p, s) && Answers(p.provider, reply)
    ensures Inv(p, r) && !r.loading
  {
    match reply
    case YouTubeReply(page) => CompleteYouTube(s, isInitial, page)
    case DailymotionReply(page) => CompleteDailymotion(s, isInitial, page)
  }

  /** One whole `loadData(isInitial)` call whose fetch settles with `reply`
      before the next event. */
  function Load(p: Params, s: LoaderState, isInitial: bool, reply: Reply): (r: LoaderState)
    requires Inv(p, s) && Answers(p.provider, reply)
    ensures Inv(p, r)
    ensures s.loading ==> r == s
    ensures !s.loading ==> !r.loading
  {
    var st := StartLoad(p, s, isInitial);
    if st.request.None? then st.state else Complete(p, st.state, isInitial, reply)
  }

  /** The reset effect: clear the list, re-arm `hasMore`, rewind the cursor,
      then call `loadData(true)`. */
  function Reset(p: Params, s: LoaderState): (r: Step)
    requires Inv(p, s)
    ensures r.state.videos == [] && r.state.hasMore
    ensures r.state.nextPage == StartCursor(p.provider)
    ensures r.request.Some? <==> !s.loading
    ensures r.request.Some? ==> r.state.loading && Requested(r.request.value) == StartCursor(p.provider)
    ensures r.request.Some? ==>
      && r.request.value.q == SearchTerm(p.query)
      && r.request.value.lang == p.lang
      && (r.request.value.YouTubeSearch? <==> p.provider == YouTube)
    ensures s.loading ==> r.state == s.(videos := [], hasMore := true, nextPage := StartCursor(p.provider))
  {
    StartLoad(p, s.(videos := [], hasMore := true, nextPage := StartCursor(p.provider)), true)
  }

  /** A fresh grid instance: initial state, then the reset effect on mount.
      It is empty and loading, and has asked for the start cursor with the
      normalised term. */
  function Mount(p: Params): (r: Step)
    ensures Inv(p, r.state)
    ensures r.state == LoaderState([], StartCursor(p.provider), true, true)
    ensures r.request.Some?
    ensures Requested(r.request.value) == StartCursor(p.provider)
    ensures r.request.value.q == SearchTerm(p.query) && r.request.value.lang == p.lang
  {
    Reset(p, Initial(p))
  }

  /** The scroll geometry of the grid's container, in whole pixels. */
  datatype Geometry = Geometry(scrollTop: int, scrollHeight: int, clientHeight: int)

  /** Within 100 pixels of the bottom. */
  predicate NearBottom(g: Geometry) {
    g.scrollHeight - g.scrollTop <= g.clientHeight + 100
  }

  /** `handleScroll`: a later load near the bottom, when idle and more pages exist. */
  function Scroll(p: Params, s: LoaderState, g: Geometry): (r: Step)
    requires Inv(p, s)
    ensures r.request.Some? <==> NearBottom(g) && !s.loading && s.hasMore
    ensures r.request.None? ==> r.state == s
    ensures r.request.Some? ==> Requested(r.request.value) == s.nextPage && r.state == s.(loading := true)
    ensures r.request.Some? ==>
      && r.request.value.q == SearchTerm(p.query)
      && r.request.value.lang == p.lang
      && (r.request.value.YouTubeSearch? <==> p.provider == YouTube)
  {
    if NearBottom(g) && !s.loading && s.hasMore then StartLoad(p, s, false) else Step(s, None)
  }

  /** The "No videos found" message. */
  predicate ShowsEmptyState(s: LoaderState) {
    !s.loading && |s.videos| == 0
  }

  // ---------------------------------------------------------------------------
  // Runs of later loads

  /** The items a later load appends for `reply`: the stored list, or nothing
      when it cannot be stored. */
  function Arrived(reply: Reply): seq<Value> {
    match AsList(ListOf(reply))
    case Ok(a) => a
    case Thrown => []
  }

  predicate AllAnswer(p: Params, rs: seq<Reply>) {
    forall k :: 0 <= k < |rs| ==> Answers(p.provider, rs[k])
  }

  /** `loadData(false)` called once per reply in `rs`, each settling before the next call. */
  function LaterLoads(p: Params, s: LoaderState, rs: seq<Reply>): (r: LoaderState)
    requires Inv(p, s) && AllAnswer(p, rs)
    ensures Inv(p, r)
    ensures !s.loading ==> !r.loading
    decreases |rs|
  {
    if rs == [] then s else LaterLoads(p, Load(p, s, false, rs[0]), rs[1..])
  }

  /** The search each of those calls issues, in order: the k-th call starts
      from the state the first k loads left (`None` when it was a no-op). */
  function LaterSearches(p: Params, s: LoaderState, rs: seq<Reply>): (r: seq<Option<Search>>)
    requires Inv(p, s) && AllAnswer(p, rs)
    ensures |r| == |rs|
    ensures rs != [] ==> r[0] == StartLoad(p, s, false).request
    decreases |rs|
  {
    if rs == [] then []
    else [StartLoad(p, s, false).request] + LaterSearches(p, Load(p, s, false, rs[0]), rs[1..])
  }

  /** The items each reply in `rs` delivers, one page after the other. */
  function ArrivedInOrder(rs: seq<Reply>): seq<Value>
    decreases |rs|
  {
    if rs == [] then [] else Arrived(rs[0]) + ArrivedInOrder(rs[1..])
  }

  /** Later loads only ever append: the list after a run is the list before
      it followed by each page's items in arrival order, so earlier items are
      never reordered or dropped. */
  lemma {:induction false} LaterLoadsAppend(p: Params, s: LoaderState, rs: seq<Reply>)
    requires Inv(p, s) && !s.loading && AllAnswer(p, rs)
    ensures LaterLoads(p, s, rs).videos == s.videos + ArrivedInOrder(rs)
    ensures !LaterLoads(p, s, rs).loading
    decreases |rs|
  {
    if rs != [] {
      var s1 := Load(p, s, false, rs[0]);
      LoadAppends(p, s, rs[0]);
      LaterLoadsAppend(p, s1, rs[1..]);
      calc {
        LaterLoads(p, s, rs).videos;
        LaterLoads(p, s1, rs[1..]).videos;
        s1.videos + ArrivedInOrder(rs[1..]);
        (s.videos + Arrived(rs[0])) + ArrivedInOrder(rs[1..]);
        { AppendAssoc(s.videos, Arrived(rs[0]), ArrivedInOrder(rs[1..])); }
        s.videos + (Arrived(rs[0]) + ArrivedInOrder(rs[1..]));
        s.videos + ArrivedInOrder(rs);
      }
    }
  }

  lemma AppendAssoc(a: seq<Value>, b: seq<Value>, c: seq<Value>)
    ensures (a + b) + c == a + (b + c)
  {
  }

  /** One later load appends the arrived items and settles. */
  lemma LoadAppends(p: Params, s: LoaderState, reply: Reply)
    requires Inv(p, s) && !s.loading && Answers(p.provider, reply)
    ensures Load(p, s, false, reply).videos == s.videos + Arrived(reply)
    ensures !Load(p, s, false, reply).loading
  {
    CompleteLater(p, s.(loading := true), reply);
  }

  /** The settling half of a later load appends the arrived items. */
  lemma CompleteLater(p: Params, s: LoaderState, reply: Reply)
    requires Inv(p, s) && Answers(p.provider, reply)
    ensures Complete(p, s, false, reply).videos == s.videos + Arrived(reply)
  {
    if AsList(ListOf(reply)).Thrown? {
      assert s.videos + [] == s.videos;
    }
  }

  /** A reply the grid can store: its list is an array, or nothing. */
  predicate Storable(reply: Reply) {
    AsList(ListOf(reply)).Ok?
  }

  /** A storable Dailymotion reply. */
  predicate DailymotionPageOk(reply: Reply) {
    reply.DailymotionReply? && Storable(reply)
  }

  /** One later Dailymotion load from page n leaves the grid idle on page n + 1. */
  lemma DailymotionStep(p: Params, s: LoaderState, n: nat, reply: Reply)
    requires p.provider == Dailymotion && Inv(p, s) && !s.loading && s.nextPage == Page(n)
    requires DailymotionPageOk(reply)
    ensures Answers(p.provider, reply)
    ensures Load(p, s, false, reply).nextPage == Page(n + 1) && !Load(p, s, false, reply).loading
  {
  }

  /** The Dailymotion counter moves on by exactly one per later load, empty
      pages included. */
  lemma {:induction false} DailymotionCounter(p: Params, s: LoaderState, n: nat, rs: seq<Reply>)
    requires p.provider == Dailymotion && Inv(p, s) && !s.loading && s.nextPage == Page(n)
    requires forall k :: 0 <= k < |rs| ==> DailymotionPageOk(rs[k])
    ensures AllAnswer(p, rs)
    ensures LaterLoads(p, s, rs).nextPage == Page(n + |rs|)
    decreases |rs|
  {
    if rs != [] {
      var s1 := Load(p, s, false, rs[0]);
      DailymotionStep(p, s, n, rs[0]);
      DailymotionCounter(p, s1, n + 1, rs[1..]);
    }
  }

  /** The k-th later Dailymotion load (from 0), starting from page n, asks
      for page n + k. */
  lemma {:induction false} DailymotionPages(p: Params, s: LoaderState, n: nat, rs: seq<Reply>)
    requires p.provider == Dailymotion && Inv(p, s) && !s.loading && s.nextPage == Page(n)
    requires forall k :: 0 <= k < |rs| ==> DailymotionPageOk(rs[k])
    ensures AllAnswer(p, rs)
    ensures forall k :: 0 <= k < |rs| ==>
      LaterSearches(p, s, rs)[k] == Some(DailymotionSearch(n + k, SearchTerm(p.query), p.lang))
    decreases |rs|
  {
    if rs != [] {
      var s1 := Load(p, s, false, rs[0]);
      DailymotionStep(p, s, n, rs[0]);
      DailymotionPages(p, s1, n + 1, rs[1..]);
      var tail := LaterSearches(p, s1, rs[1..]);
      assert LaterSearches(p, s, rs) == [StartLoad(p, s, false).request] + tail;
    }
  }

  /** After the initial Dailymotion load, the k-th later load (from 0) asks
      for page k + 2: the first later load for page 2, and so on. */
  lemma DailymotionPageAfterInitial(p: Params, s: LoaderState, r0: Reply, rs: seq<Reply>)
    requires p.provider == Dailymotion && Inv(p, s) && !s.loading
    requires DailymotionPageOk(r0)
    requires forall k :: 0 <= k < |rs| ==> DailymotionPageOk(rs[k])
    ensures Load(p, s, true, r0).nextPage == Page(2)
    ensures AllAnswer(p, rs)
    ensures forall k :: 0 <= k < |rs| ==>
      LaterSearches(p, Load(p, s, true, r0), rs)[k] == Some(DailymotionSearch(k + 2, SearchTerm(p.query), p.lang))
  {
    DailymotionPages(p, Load(p, s, true, r0), 2, rs);
  }

  /** YouTube paging follows the returned tokens: after a later load, the
      next later load asks for the token that load returned (or ""), and
      keeps going exactly when that token is truthy. */
  lemma YouTubeTokenFollowed(p: Params, s: LoaderState, page: YouTubePage)
    requires p.provider == YouTube && Inv(p, s) && !s.loading
    requires AsList(page.items).Ok?
    ensures var s1 := Load(p, s, false, YouTubeReply(page));
      && !s1.loading
      && (s1.hasMore <==> Truthy(page.nextPageToken))
      && StartLoad(p, s1, false).request
         == Some(YouTubeSearch(SearchTerm(p.query), Or(page.nextPageToken, Str("")), p.lang))
  {
  }

  /** An initial load replaces whatever the list held with exactly the
      arrived items, whatever the state before it, and restarts the cursor
      from what the reply says. */
  lemma InitialLoadReplaces(p: Params, s: LoaderState, reply: Reply)
    requires Inv(p, s) && !s.loading && Answers(p.provider, reply) && Storable(reply)
    ensures Load(p, s, true, reply).videos == Arrived(reply)
    ensures Load(p, s, true, reply).nextPage == (if reply.YouTubeReply?
      then Token(Or(reply.yt.nextPageToken, Str(""))) else Page(2))
  {
  }

  /** At most one fetch is in flight: while a load is pending, neither another
      `loadData` call, nor the reset effect, nor a scroll issues a search. */
  lemma AtMostOneInFlight(p: Params, s: LoaderState, isInitial: bool, again: bool, g: Geometry)
    requires Inv(p, s) && !s.loading
    ensures var pending := StartLoad(p, s, isInitial).state;
      && StartLoad(p, pending, again).request.None?
      && Reset(p, pending).request.None?
      && Scroll(p, pending, g).request.None?
  {
  }

  /** Once a page reports the end, scrolling never loads again: the state is
      left as it is until the grid is remounted. */
  lemma EndIsFinal(p: Params, s: LoaderState, gs: seq<Geometry>)
    requires Inv(p, s) && !s.hasMore
    ensures forall k :: 0 <= k < |gs| ==> Scroll(p, s, gs[k]) == Step(s, None)
  {
  }

  /** After the initial load settles, "No videos found" shows exactly when
      the reply delivered no items. */
  lemma EmptyStateAfterInitialLoad(p: Params, reply: Reply)
    requires Answers(p.provider, reply)
    ensures var s := Complete(p, Mount(p).state, true, reply);
      ShowsEmptyState(s) <==> Arrived(reply) == []
  {
  }

  // ---------------------------------------------------------------------------
  // Scenarios

  /** A blank YouTube query asks for "trending" from the first page. */
  lemma BlankQueryScenario(lang: string)
    ensures Mount(Params(YouTube, "", lang)).request == Some(YouTubeSearch("trending", Str(""), lang))
    ensures Mount(Params(YouTube, " \t", lang)).request == Some(YouTubeSearch("trending", Str(""), lang))
  {
    BlankIsTrending();
  }

  lemma BlankIsTrending()
    ensures SearchTerm("") == "trending" && SearchTerm(" \t") == "trending"
  {
    assert AllTrimmable(" \t") by {
      assert IsTrimmable(" \t"[0]) && IsTrimmable(" \t"[1]);
    }
  }

  /** A YouTube body `{items: [x, y], nextPageToken: "T1"}` followed by a
      scroll near the bottom: the grid stores x, y and the token, the scroll
      asks for "T1", and x, y stay in front of whatever arrives next. */
  lemma TokenScenario(q: string, lang: string, x: Value, y: Value, g: Geometry, t1: Transport, t2: Transport)
    requires NearBottom(g)
    requires t1 == Response(true, Parsed(Obj(map["items" := Arr([x, y]), "nextPageToken" := Str("T1")])))
    ensures var p := Params(YouTube, q, lang);
      var s1 := LoaderState([x, y], Token(Str("T1")), false, true);
      && Complete(p, Mount(p).state, true, Fetch(YouTube, t1)) == s1
      && Scroll(p, s1, g).request == Some(YouTubeSearch(SearchTerm(q), Str("T1"), lang))
      && Scroll(p, s1, g).state == s1.(loading := true)
      && [x, y] <= Complete(p, s1.(loading := true), false, Fetch(YouTube, t2)).videos
  {
    var p := Params(YouTube, q, lang);
    TokenFirstPage(p, x, y, t1);
    CompleteLater(p, LoaderState([x, y], Token(Str("T1")), true, true), Fetch(YouTube, t2));
  }

  /** The first page of that scenario. */
  lemma TokenFirstPage(p: Params, x: Value, y: Value, t1: Transport)
    requires p.provider == YouTube
    requires t1 == Response(true, Parsed(Obj(map["items" := Arr([x, y]), "nextPageToken" := Str("T1")])))
    ensures Complete(p, Mount(p).state, true, Fetch(YouTube, t1)) == LoaderState([x, y], Token(Str("T1")), false, true)
  {
    var m := Mount(p).state;
    YouTubeBodyShaped(true, Arr([x, y]), Str("T1"));
    var page := YouTubePage(Arr([x, y]), Str("T1"));
    assert GetYouTubeVideos(t1) == page;
    assert Complete(p, m, true, Fetch(YouTube, t1)) == CompleteYouTube(m, true, page);
  }

  /** An empty, final Dailymotion first page shows "No videos found" and
      scrolling loads nothing more. */
  lemma EmptyDailymotionScenario(q: string, lang: string, g: Geometry, t: Transport)
    requires t == Response(true, Parsed(Obj(map["list" := Arr([]), "has_more" := Bool(false)])))
    ensures var p := Params(Dailymotion, q, lang);
      var s1 := Complete(p, Mount(p).state, true, Fetch(Dailymotion, t));
      && s1 == LoaderState([], Page(2), false, false)
      && ShowsEmptyState(s1)
      && Scroll(p, s1, g).request.None?
  {
    DailymotionBodyShaped(true, Arr([]), Bool(false));
  }
}
